=== FILE: README.md ===
# Hackathon project similarity — a Dafny model

This project models the data path of a hackathon-project similarity tool.

- **Scraper** (`back/main.py`). It walks each hackathon's Devpost project gallery page by page. For every project it extracts a title, description, story and GitHub link.
- **Batch summarizer** (`back/hackathon_analyze.py`). It builds one prompt per hackathon from the scraped projects and keeps a title-to-URL map shared by all hackathons. It attaches hackathon provenance to every item the language model returns.
- **Search back end** (`back/app.py`):
  - the text an embedding is made from;
  - the embedding backfill over the collection;
  - the `$vectorSearch` aggregation pipeline;
  - the `/analyze` handler, which scrapes a page, summarizes it, searches with it and serializes the hits with their `_id` as a string.
- **Leaderboard page** (`front/app/page.tsx`). The page state, the submit handler, the three-state sort toggle and the rank column.
- **Topics page** (`front/app/topics/page.tsx`). The topic counts sorted for the chart.

External calls are function parameters: the embedder, the language model (with the parsing of its answer), the aggregation engine, and the HTTP fetch of a page. HTML is abstracted to the few things the scraper reads. `Math.random()` and the current date are inputs.

Modules:

- `Wrappers`: `Option`.
- `Strings`: Python `strip`/`isspace`, `join`, `in`, `str(n)` and hex.
- `Records`: the stored document.
- `Embedding`, `Search`: `back/app.py`.
- `Scrape`: `back/main.py`.
- `Enrich`: `back/hackathon_analyze.py`.
- `StableSort`: the stable sort behind `Array.prototype.sort`.
- `Leaderboard`, `Topics`: the two pages.

JavaScript's sort has been stable since ES2019, so every comparator the pages use is modelled as an integer key given to a stable insertion sort. `StableSort.StableSortIsSort` shows this choice is not arbitrary: any sorted permutation that keeps equal keys in input order *is* that sort.

## Model

| member | source | states |
|---|---|---|
| Strings.Strip | back/app.py:109 | `strip()` removes exactly the leading and trailing whitespace: the result is the slice after the leading whitespace, only whitespace follows it, neither end is whitespace, and it is empty exactly when the input is all whitespace |
| Strings.NatToStringInjective | front/app/page.tsx:166 | `toString()` of two naturals gives the same text exactly when they are equal |
| Strings.UnhexHex | back/app.py:303 | the lowercase hex text of an identifier reads back as the same bytes |
| Embedding.CombineSummaryAndFeatures | back/app.py:102-110 | `None` exactly when the summary and every feature are whitespace; otherwise the non-empty, stripped text of summary, a space, and the features joined by spaces |
| Embedding.CombineWithoutFeatures | back/app.py:107-110 | with no features the text is the stripped summary, or `None` when the summary is all whitespace |
| Embedding.Backfilled | back/app.py:116-125 | one document: its record never changes; a document with an embedding or without usable text is left alone; any change sets the embedder's vector for its combined text |
| Embedding.BackfillAll | back/app.py:113-132 | the whole pass: same ids and records; a document changes exactly when it had no embedding, has usable text and the embedder answered a non-empty vector, and then it holds that vector |
| Embedding.EmbedOne | back/app.py:117-125 | the per-document branches of the loop compute the reference `Backfilled` |
| Embedding.AddEmbeddingToDocuments | back/app.py:113-132 | the walk over the cursor of the documents lacking an embedding, in any order that visits each of them, leaves exactly the reference pass `BackfillAll` |
| Embedding.BackfillIdempotent | back/app.py:116 | a second pass with the same embedder changes nothing |
| Embedding.RerunRetriesOnlyFailures | back/app.py:116-128 | a later pass, with any embedder, touches only documents whose first attempt failed or gave an empty vector |
| Scrape.AssembleStory | back/main.py:40-49 | the loop over the info div's children builds the reference fold `StoryOf`: `h2` text plus `": "`, `p` text, `ul` text plus `","` |
| Scrape.StoryOfConcat | back/main.py:40-49 | the story of two node runs is the two stories concatenated |
| Scrape.StoryOfIgnoresOtherTags | back/main.py:42-49 | nodes that are not `h2`, `p` or `ul` contribute nothing |
| Scrape.RawStory | back/main.py:31-38 | the story is empty when the page has no details column or the column has fewer than two direct child divs |
| Scrape.LastGithubLink | back/main.py:51-54 | the link is empty exactly when no href contains `https://github.com/` |
| Scrape.LastGithubLinkIsLast | back/main.py:51-54 | a non-empty link is an href containing the marker, and no later href contains it |
| Scrape.FindGithubLink | back/main.py:51-54 | the overwrite loop yields the last matching href |
| Scrape.GithubLinkOf | back/main.py:32-54 | the GitHub field is `LastGithubLink` of the details column's hrefs (the last one naming GitHub, or empty), and empty when there is no details column |
| Scrape.FetchHackathonData | back/main.py:14-62 | the record keeps the URL, uses the meta contents or `"No Title"` / `"No Description"`, holds the stripped story, and the GitHub field `GithubLinkOf(page)`, the last details-column href naming GitHub or empty |
| Scrape.ProjectHrefs | back/main.py:73-78 | exactly the hrefs starting with `https://devpost.com/software/` are kept |
| Scrape.ProjectHrefsConcat | back/main.py:76-78 | the filter keeps document order |
| Scrape.FetchProjectLinks | back/main.py:64-80 | no response exactly for a non-200 status; the 404 sentinel exactly when a 200 page shows the no-submissions sentence; otherwise one record per project link, record k scraped from the k-th project link in document order |
| Scrape.GalleryUrlInjective | back/main.py:91 | different page numbers give different gallery URLs |
| Scrape.ThemeNames | back/main.py:105 | the theme names, in order |
| Scrape.ScrapeGallery | back/main.py:86-98 | the pages kept are gallery pages 1, 2, … in order, none of them is the sentinel or an empty list, and the next page is one of those |
| Scrape.FailingGalleryNeverEnds | back/main.py:90-98 | as written: when every request fails, every gallery page is a stored `None` and no page stops the loop |
| Scrape.ScrapeGalleryChecked | back/main.py:86-98 | with a failed request also ending the loop: the pages kept are gallery pages 1, 2, … in order, each a non-empty project list, and the next page halts |
| Scrape.CollectedUntilHaltUnique | back/main.py:86-98 | the corrected loop's pages are determined by the gallery |
| Scrape.FailingGalleryHalts | back/main.py:90-98 | with the corrected test, a gallery whose every request fails ends at once with no pages |
| Scrape.CheckedAgreesWithoutFailures | back/main.py:90-98 | where no request fails, the corrected loop keeps the same pages as the loop as written |
| Scrape.ScrapeHackathons | back/main.py:82-111 | one record per hackathon in input order, with the listed fields copied, the theme names, and the gallery pages as above |
| Search.SearchPipeline | back/app.py:134-168 | `None` exactly when the query embedding is missing or empty; otherwise the stage uses index `vector_index_projects`, path `embedding`, 100 candidates and the given limit, projects the five fields plus the score, and has a filter exactly when the hackathon filter is a non-empty string, equal to it |
| Search.JsonRoundTrip | back/app.py:300-304 | serializing a hit loses nothing: its `_id` string reads back as the same identifier |
| Search.ObjectIdStringLength | back/app.py:303 | a 12-byte identifier becomes 24 hex digits |
| Search.JsonResults | back/app.py:299-304 | every hit is serialized, in order, and each reads back as that hit |
| Search.PerformVectorSearch | back/app.py:135-179 | as written: `None` exactly on the early exit or a failed aggregation; otherwise a cursor over the engine's hits for the built pipeline, with nothing left to read |
| Search.PerformVectorSearchListed | back/app.py:135-179 | with the hits listed first: `None` on the early exit, otherwise exactly the engine's answer for the built pipeline |
| Search.AnalyzeStoryMatchesScraper | back/app.py:255-285 | `/analyze` stores the scraper's story, or the stripped description when the assembled story is empty |
| Search.AnalyzeScrape | back/app.py:240-290 | the handler fails exactly when the submission link is missing; otherwise the document's title and description are the scraper's (with the `"No Title"` / `"No Description"` defaults), its URL is the request's, its story is the fallback story, and it holds the stripped hackathon name and the hackathon link's href |
| Search.AnalyzeGithubMatchesScraper | back/app.py:250-274 | the GitHub link the handler stores is the scraper's: the last details-column href naming GitHub, or empty |
| Search.AnalyzeReturnsNoHits | back/app.py:232-306 | as written, the `/analyze` handler (`Search.Analyze`) answers a server error or `[]`, never a hit |
| Search.AnalyzeListedReturnsHits | back/app.py:232-306 | with the hits listed first, the `/analyze` handler (`Search.AnalyzeListed`) fails exactly where the original fails, answers exactly when the page scrapes, the summary comes back and the default search for that summary's embedding succeeds, and then answers those hits, serialized, in the engine's order |
| Search.AnalyzeLosesHits | back/app.py:171-177 | whenever the search finds a hit, the handler as written answers `[]` and differs from the listed one |
| Search.DrainedCursorExample | back/app.py:173-177 | a concrete page, summary, vector and one-hit search for which the handler as written answers `[]` and the listed handler answers the hit |
| Enrich.Batches | back/hackathon_analyze.py:30 | the stored batches load exactly when every stored page is a list of projects, and then they are those lists |
| Enrich.AddTitlesLastWins | back/hackathon_analyze.py:32 | the map's keys are the earlier keys plus the recorded titles; a title maps to the URL of its last project; keys no project mentions keep their URL |
| Enrich.AddTitlesConcat | back/hackathon_analyze.py:25-32 | recording two runs of projects one after the other is recording them together, which is why one map can serve every hackathon |
| Enrich.AddBatch | back/hackathon_analyze.py:31-37 | the inner loop appends each project's block and records its title, in order |
| Enrich.BuildPrompt | back/hackathon_analyze.py:29-46 | the prompt is the blocks of all projects of all batches in order plus the instruction, and the map gains their titles |
| Enrich.BlocksContainEveryProject | back/hackathon_analyze.py:33-37 | every scraped project's block occurs in the prompt |
| Enrich.Contribution | back/hackathon_analyze.py:57-79 | a failed parse adds nothing; otherwise one item per parsed item, in order, unchanged, with the hackathon's title, location, dates and organization or `""` |
| Enrich.DevpostUrlFromProjects | back/hackathon_analyze.py:72 | an item's page URL is that of the last scraped project carrying its title, or `""` when none carries it |
| Enrich.ProcessHackathons | back/hackathon_analyze.py:18-80 | results exist exactly when every hackathon's batches load, and they are the reference `Summaries`: each hackathon's contribution in order, with the map built so far |
| StableSort.SortSpec | front/app/topics/page.tsx:25 | the sort keeps length and elements, orders by key, and keeps elements with equal keys in input order |
| StableSort.StableSortIsSort | front/app/page.tsx:190-195 | any permutation ordered by key that keeps equal keys in input order equals the model's sort |
| StableSort.SortKeepsSorted | front/app/page.tsx:193 | a sequence already ordered by key is left as it is; with factor 0 every comparison ties |
| Leaderboard.FactorOrders | front/app/page.tsx:190-195 | factor 1 gives decreasing similarity, factor -1 increasing, factor 0 the sample order; the entries are always the same |
| Leaderboard.InitialHome | front/app/page.tsx:134-144 | the first render holds the sample rows by decreasing similarity, toggle 1, no URL, not loading, no error |
| Leaderboard.NewEntry | front/app/page.tsx:165-172 | the new row's id is the row count plus one as text, and its similarity is between 70 and 99 |
| Leaderboard.SubmitPending | front/app/page.tsx:155-156 | while the request is pending the form is loading, the error is cleared and the rows are unchanged |
| Leaderboard.Submit | front/app/page.tsx:147-188 | an empty URL only sets "Please enter a URL"; otherwise the rows gain exactly the new entry and are by decreasing similarity, the URL is cleared, loading is over, the error is cleared and the toggle is kept |
| Leaderboard.SortCountCycles | front/app/page.tsx:141 | from 1 the toggle reads 1, -1, 0 for click counts 0, 1, 2 mod 3 |
| Leaderboard.ClickSortHeader | front/app/page.tsx:261-264 | a click shows the sample rows sorted with the current toggle value, then advances the toggle; nothing else changes |
| Leaderboard.ToggleFollowsClicks | front/app/page.tsx:261-264 | over any mix of clicks and submits the toggle depends only on the number of clicks |
| Leaderboard.ToggleCycles | front/app/page.tsx:261-264 | after `n` clicks from toggle 1 it reads 1, -1, 0 for `n` mod 3 = 0, 1, 2 |
| Leaderboard.Rows | front/app/page.tsx:275-277 | row i shows entry i with rank i + 1 |
| Leaderboard.RanksFollowSimilarity | front/app/page.tsx:275-277 | on rows by decreasing similarity a better rank never has a lower percentage |
| Leaderboard.IdsOfPermutation | front/app/page.tsx:276 | rows holding the same entries hold the same ids |
| Leaderboard.RankIdsDistinct | front/app/page.tsx:166 | the ids "1" to "n" are pairwise different |
| Leaderboard.RowIdsStayUnique | front/app/page.tsx:166-179 | from numbered rows every later state numbers its rows "1" to "n", so no two rows share a row key |
| Leaderboard.FirstRenderNumbered | front/app/page.tsx:39-80 | the first render numbers its rows "1" to "5" |
| Leaderboard.NewRowIdIsFresh | front/app/page.tsx:166 | the new row's id is not the id of any row already shown |
| Topics.SortedDataSpec | front/app/topics/page.tsx:9-25 | the chart shows every topic once, by decreasing count, with ties in listed order; the sample list is already in that order, so the chart shows it unchanged |

## Left out

- The vector index set-up (`back/app.py:42-87`) is left out. It only configures the search engine: it drops and recreates the index, then polls until the index is ready. The 1536-dimension width it declares is not checked on vectors.
- What the search engine does with a pipeline is left out: which documents a filtered or unfiltered `$vectorSearch` can return and how it ranks them. The engine is a parameter, and the model states the pipeline it is sent and what is done with its answer.
- `generate_embedding` (`back/app.py:90-99`) is the embedder parameter. It returns `None` when the call raises.
- The prompt and model call inside `gemini_summary` are left out. The summarizer is a parameter returning the parsed summary or `None`.
- The `generate_content` call in `process_hackathons` is left out. Only its parsed answer (`None` for a parse or validation failure) is modelled, and an exception raised by the call itself is not.
- A stored document that lacks `summary`, `features` or `title` is left out. The source raises `KeyError` there and ends the pass inside the `try`; the model's documents always carry these fields.
- A failing read or write of the backfill is left out. An exception from `collection.find` or `collection.update_one` ends the whole pass inside the same `try` (`back/app.py:114-132`): the documents before it keep their new embedding and the later ones are not visited. `Embedding.AddEmbeddingToDocuments` assumes every write succeeds.
- Logging (`print`) is left out.
- Reading and writing the JSON files (`data.json`, `hackathon_data.json`, `hackathon_summaries.json`) is left out. The scraper's input is a sequence of hackathon listings; the output is its result.
- Removing the `built-with` section is not modelled. The project page is given with it already removed.
- A meta tag without `content`, and the missing `displayed_location` keys, are left out. Both raise `KeyError` in the source.
- A gallery that never reaches an empty or no-submissions page is left out of `Scrape.ScrapeHackathons`, which requires that some page stops the loop; the `None` pages it stores are modelled. The failing-request case is recorded under Findings. A gallery that serves project lists on every page also never ends, under either stopping test.
- A `None` stored page is modelled only as an error. `process_hackathons` then crashes (`None` is not iterable), and the model returns `None` for that case.
- `ProgressBar`'s colour computation is left out. It is floating-point presentation.
- The page's rendering is left out, apart from the rank column and the row key.
- The catch branch of `handleSubmit` ("Failed to process the URL…") is left out. The simulated request cannot fail.
- A click during the one-second wait of a submit is left out. When the submit completes it writes back rows from the state it started with; the model treats each handler as atomic.
- `Search.PerformVectorSearch`: the query text's embedding is an input. In `/analyze` the embedder is consulted only when the summary has text; the source calls the embedder with `None`, which the external call rejects, giving the same `None`.
- Python's `isspace` is modelled by its code-point table. Unicode categories beyond that table are not consulted.

## Findings

| source | as written | input that shows it | evidently intended | confidence | as-written member | corrected member |
|---|---|---|---|---|---|---|
| back/app.py:171-177 | `perform_vector_search` prints every result by iterating the aggregation cursor, then returns that same cursor. `/analyze` then iterates it again, finds it exhausted, and answers `[]` | a page with a submission link, a summary with text, and a search that finds one project (`Search.DrainedCursorExample`) | list the cursor before printing (`results = list(collection.aggregate(pipeline))`), so `/analyze` returns the hits | not executed | Search.AnalyzeReturnsNoHits | Search.AnalyzeListedReturnsHits |
| back/main.py:90-98 | the page loop stops only on the `404` sentinel or an empty list; a failed request returns `None`, which is stored, and the loop requests the next page | a gallery URL whose every request fails, for instance with HTTP 404 (`Scrape.FailingGalleryNeverEnds`) | stop on a failed request as well (`if not return_data: break`) | not executed | Scrape.FailingGalleryNeverEnds | Scrape.ScrapeGalleryChecked |

=== FILE: embedding.dfy ===
/**
 * The embedding text builder and the backfill pass over the document
 * collection (back/app.py). The embedder is a function parameter: it maps a
 * text to a vector, or to `None` when the external call failed.
 */
module Embedding {
  import opened Wrappers
  import opened Strings
  import opened Records

  lemma AllSpaceConcat(a: string, b: string)
    ensures AllSpace(a + b) <==> AllSpace(a) && AllSpace(b)
  {
    if AllSpace(a + b) {
      assert forall i :: 0 <= i < |a| ==> a[i] == (a + b)[i];
      assert forall i :: 0 <= i < |b| ==> b[i] == (a + b)[|a| + i];
    }
  }

  /** A `" "`-joined list is blank exactly when every part is blank. */
  lemma {:induction false} JoinAllSpace(parts: seq<string>)
    ensures AllSpace(Join(" ", parts)) <==> forall i :: 0 <= i < |parts| ==> AllSpace(parts[i])
  {
    if |parts| > 1 {
      JoinAllSpace(parts[1..]);
      AllSpaceConcat(parts[0] + " ", Join(" ", parts[1..]));
      AllSpaceConcat(parts[0], " ");
      assert forall i :: 1 <= i < |parts| ==> parts[i] == parts[1..][i - 1];
    }
  }

  /**
   * The text that gets embedded for a document: its summary, a space, and its
   * features joined by single spaces, stripped; `None` when that is empty.
   */
  function CombineSummaryAndFeatures(summary: string, features: seq<string>): (r: Option<string>)
    ensures r.None? <==> AllSpace(summary) && forall i :: 0 <= i < |features| ==> AllSpace(features[i])
    ensures r.Some? ==> r.value != "" && IsStripped(r.value)
    ensures r.Some? ==> r.value == Strip(summary + " " + Join(" ", features))
  {
    var featuresText := if |features| > 0 then Join(" ", features) else "";
    var combined := Strip(summary + " " + featuresText);
    JoinAllSpace(features);
    AllSpaceConcat(summary + " ", featuresText);
    AllSpaceConcat(summary, " ");
    if combined != "" then Some(combined) else None
  }

  lemma {:induction false} TrimStartSpace(s: string)
    ensures TrimStart(s + " ") == if AllSpace(s) then "" else TrimStart(s) + " "
  {
    if |s| > 0 {
      assert (s + " ")[1..] == s[1..] + " ";
      if IsSpace(s[0]) {
        TrimStartSpace(s[1..]);
        assert AllSpace(s) == AllSpace(s[1..]);
      }
    }
  }

  /** A trailing space never survives `strip()`. */
  lemma StripTrailingSpace(s: string)
    ensures Strip(s + " ") == Strip(s)
  {
    TrimStartSpace(s);
    if !AllSpace(s) {
      var t := TrimStart(s);
      assert (t + " ")[..|t + " "| - 1] == t;
    }
  }

  /** With no features the text is the stripped summary, and `None` for a blank summary. */
  lemma CombineWithoutFeatures(summary: string)
    ensures CombineSummaryAndFeatures(summary, []) == if AllSpace(summary) then None else Some(Strip(summary))
  {
    StripTrailingSpace(summary);
    assert summary + " " + Join(" ", []) == summary + " ";
  }

  /** The embedder's answer is used only when it is a non-empty vector (Python truthiness). */
  predicate Usable(v: Option<Vector>) {
    v.Some? && |v.value| > 0
  }

  /** The text a document would be embedded from. */
  function TextOf(d: Doc): Option<string> {
    CombineSummaryAndFeatures(d.record.item.summary, d.record.item.features)
  }

  /** The embedding a document without one receives in a pass, if any. */
  predicate GetsEmbedding(d: Doc, embed: string -> Option<Vector>) {
    d.embedding.None? && TextOf(d).Some? && Usable(embed(TextOf(d).value))
  }

  /** What one backfill pass does to one document. */
  function Backfilled(d: Doc, embed: string -> Option<Vector>): (r: Doc)
    ensures r.record == d.record
    ensures d.embedding.Some? ==> r == d
    ensures TextOf(d).None? ==> r == d
    ensures r.embedding != d.embedding ==> GetsEmbedding(d, embed) && r.embedding == embed(TextOf(d).value)
    ensures GetsEmbedding(d, embed) ==> r.embedding == embed(TextOf(d).value)
  {
    if d.embedding.None? then
      match TextOf(d)
      case None => d
      case Some(text) =>
        var v := embed(text);
        if Usable(v) then d.(embedding := v) else d
    else d
  }

  /** A whole pass over a collection, as a per-document reference definition. */
  function BackfillAll(coll: map<ObjectId, Doc>, embed: string -> Option<Vector>): (r: map<ObjectId, Doc>)
    ensures r.Keys == coll.Keys
    ensures forall id :: id in coll ==> r[id].record == coll[id].record
    ensures forall id :: id in coll && coll[id].embedding.Some? ==> r[id] == coll[id]
    ensures forall id :: id in coll ==> (r[id] != coll[id] <==> GetsEmbedding(coll[id], embed))
    ensures forall id :: id in coll && GetsEmbedding(coll[id], embed) ==> r[id].embedding == embed(TextOf(coll[id]).value)
  {
    map id | id in coll :: Backfilled(coll[id], embed)
  }

  /**
   * One document of the pass as the source treats it: only a document with no
   * `embedding` is considered, and it gets the vector when the combined text
   * and the embedder's answer are both usable.
   */
  method EmbedOne(doc: Doc, embed: string -> Option<Vector>) returns (updated: Doc)
    ensures updated == Backfilled(doc, embed)
  {
    updated := doc;
    if doc.embedding.None? {
      var combined := CombineSummaryAndFeatures(doc.record.item.summary, doc.record.item.features);
      if combined.Some? {
        var embedding := embed(combined.value);
        if embedding.Some? && |embedding.value| > 0 {
          updated := doc.(embedding := embedding);
        }
      }
    }
  }

  /** Part way through the pass: the documents in `seen` are done, the others untouched. */
  ghost predicate DoneFor(coll: map<ObjectId, Doc>, out: map<ObjectId, Doc>, seen: set<ObjectId>, embed: string -> Option<Vector>) {
    && out.Keys == coll.Keys
    && forall id :: id in out ==> out[id] == if id in seen then Backfilled(coll[id], embed) else coll[id]
  }

  lemma DoneForStep(coll: map<ObjectId, Doc>, out: map<ObjectId, Doc>, seen: set<ObjectId>, embed: string -> Option<Vector>, id: ObjectId)
    requires DoneFor(coll, out, seen, embed) && id in coll
    ensures var updated := Backfilled(coll[id], embed);
      DoneFor(coll, if updated != coll[id] then out[id := updated] else out, seen + {id}, embed)
  {
  }

  lemma DoneForAll(coll: map<ObjectId, Doc>, out: map<ObjectId, Doc>, seen: set<ObjectId>, embed: string -> Option<Vector>)
    requires DoneFor(coll, out, seen, embed)
    requires forall id :: id in coll && coll[id].embedding.None? ==> id in seen
    ensures out == BackfillAll(coll, embed)
  {
  }

  lemma SeenStep(order: seq<ObjectId>, i: nat)
    requires i < |order|
    ensures (set k | 0 <= k < i + 1 :: order[k]) == (set k | 0 <= k < i :: order[k]) + {order[i]}
  {
  }

  /**
   * The pass as the source runs it: walk the cursor over the documents that
   * lack an embedding, in its order, and write back each document `EmbedOne`
   * changed, under the same id; every other document is skipped and the walk
   * continues.
   */
  method AddEmbeddingToDocuments(coll: map<ObjectId, Doc>, order: seq<ObjectId>, embed: string -> Option<Vector>)
    returns (out: map<ObjectId, Doc>)
    requires forall k :: 0 <= k < |order| ==> order[k] in coll && coll[order[k]].embedding.None?
    requires (set id | id in coll && coll[id].embedding.None?) <= set k | 0 <= k < |order| :: order[k]
    ensures out == BackfillAll(coll, embed)
  {
    out := coll;
    ghost var seen: set<ObjectId> := {};
    var i := 0;
    while i < |order|
      invariant 0 <= i <= |order|
      invariant seen == set k | 0 <= k < i :: order[k]
      invariant DoneFor(coll, out, seen, embed)
    {
      var id := order[i];
      var doc := coll[id];
      var updated := EmbedOne(doc, embed);
      DoneForStep(coll, out, seen, embed, id);
      if updated != doc {
        out := out[id := updated];
      }
      assert DoneFor(coll, out, seen + {id}, embed);
      SeenStep(order, i);
      seen := seen + {id};
      i := i + 1;
    }
    DoneForAll(coll, out, seen, embed);
  }

  /** A second pass with the same embedder changes nothing. */
  lemma BackfillIdempotent(coll: map<ObjectId, Doc>, embed: string -> Option<Vector>)
    ensures BackfillAll(BackfillAll(coll, embed), embed) == BackfillAll(coll, embed)
  {
    var once := BackfillAll(coll, embed);
    forall id | id in coll
      ensures Backfilled(once[id], embed) == once[id]
    {
      var d := coll[id];
      if GetsEmbedding(d, embed) {
        assert once[id].embedding.Some?;
      } else {
        assert once[id] == d;
      }
    }
  }

  /**
   * A later pass, with any embedder, touches only documents whose embedder call
   * failed (or returned an empty vector) in the first pass.
   */
  lemma RerunRetriesOnlyFailures(coll: map<ObjectId, Doc>, first: string -> Option<Vector>, second: string -> Option<Vector>, id: ObjectId)
    requires id in coll
    ensures var once := BackfillAll(coll, first);
      BackfillAll(once, second)[id] != once[id] ==>
        && coll[id].embedding.None?
        && TextOf(coll[id]).Some?
        && !Usable(first(TextOf(coll[id]).value))
  {
  }
}

=== FILE: enrich.dfy ===
/**
 * The batch summarizer (back/hackathon_analyze.py): one prompt per hackathon
 * listing its scraped projects, a title-to-URL map shared by all hackathons,
 * and the model's answer enriched with provenance fields. The language model
 * call together with the parsing of its answer is a function parameter that
 * yields the parsed items, or `None` when parsing or validation failed.
 */
module Enrich {
  import opened Wrappers
  import opened Strings
  import opened Records
  import opened Scrape

  const Indent := "                "

  /** The prompt lines for one project. */
  function ProjectBlock(p: RawProject): string {
    "\n" + Indent + "Project Title: " + p.title
    + "\n" + Indent + "Project Description: " + p.description
    + "\n" + Indent + "Project Story: " + p.story
    + "\n" + Indent
  }

  /** The extraction instruction that closes every prompt. */
  const Instruction :=
    "\n        Extract the main points in simple words (basically what the project does) and return the data in the following format:"
    + "\n        {"
    + "\n            \"title\": str,"
    + "\n            \"summary\": str,"
    + "\n            \"features\": List[str]"
    + "\n        }"
    + "\n        "

  /** The batches of a hackathon's projects as loaded back from the scraper's file; `None` when a batch is not a list. */
  function Batches(pages: seq<Links>): (r: Option<seq<seq<RawProject>>>)
    ensures r.None? <==> exists k :: 0 <= k < |pages| && !pages[k].Projects?
    ensures r.Some? ==> |r.value| == |pages| && forall k :: 0 <= k < |pages| ==> r.value[k] == pages[k].items
  {
    if |pages| == 0 then Some([])
    else if !pages[|pages| - 1].Projects? then None
    else
      var init := Batches(pages[..|pages| - 1]);
      assert forall k :: 0 <= k < |pages| - 1 ==> pages[..|pages| - 1][k] == pages[k];
      if init.None? then None else Some(init.value + [pages[|pages| - 1].items])
  }

  /** The projects of all batches, batch by batch. */
  function Flatten(batches: seq<seq<RawProject>>): seq<RawProject> {
    if |batches| == 0 then [] else Flatten(batches[..|batches| - 1]) + batches[|batches| - 1]
  }

  /** The prompt blocks of a list of projects, in order. */
  function Blocks(ps: seq<RawProject>): string {
    if |ps| == 0 then "" else Blocks(ps[..|ps| - 1]) + ProjectBlock(ps[|ps| - 1])
  }

  /** No project with this title comes after position `k`. */
  ghost predicate LastOfTitle(ps: seq<RawProject>, k: int)
    requires 0 <= k < |ps|
  {
    forall j :: k < j < |ps| ==> ps[j].title != ps[k].title
  }

  /** The title-to-URL map after recording `ps` in order on top of `m`: each title maps to its project's URL, later ones overwriting. */
  function AddTitles(m: map<string, string>, ps: seq<RawProject>): map<string, string> {
    if |ps| == 0 then m
    else AddTitles(m, ps[..|ps| - 1])[ps[|ps| - 1].title := ps[|ps| - 1].url]
  }

  /**
   * The map's keys are the earlier keys and the recorded titles; a recorded
   * title maps to the URL of the last project with that title, and an earlier
   * key no project mentions keeps its URL.
   */
  lemma AddTitlesLastWins(m: map<string, string>, ps: seq<RawProject>)
    ensures forall t :: t in AddTitles(m, ps) <==> t in m || exists k :: 0 <= k < |ps| && ps[k].title == t
    ensures forall k :: 0 <= k < |ps| && LastOfTitle(ps, k) ==> AddTitles(m, ps)[ps[k].title] == ps[k].url
    ensures forall t :: t in m && (forall j :: 0 <= j < |ps| ==> ps[j].title != t) ==> AddTitles(m, ps)[t] == m[t]
  {
    AddTitlesKeys(m, ps);
    forall k | 0 <= k < |ps| && LastOfTitle(ps, k)
      ensures AddTitles(m, ps)[ps[k].title] == ps[k].url
    {
      AddTitlesLast(m, ps, k);
    }
    forall t | t in m && (forall j :: 0 <= j < |ps| ==> ps[j].title != t)
      ensures AddTitles(m, ps)[t] == m[t]
    {
      AddTitlesKeeps(m, ps, t);
    }
  }

  lemma {:induction false} AddTitlesKeys(m: map<string, string>, ps: seq<RawProject>)
    ensures forall t :: t in AddTitles(m, ps) <==> t in m || exists k :: 0 <= k < |ps| && ps[k].title == t
  {
    if |ps| > 0 {
      var init := ps[..|ps| - 1];
      AddTitlesKeys(m, init);
      assert forall k :: 0 <= k < |init| ==> init[k] == ps[k];
    }
  }

  lemma {:induction false} AddTitlesLast(m: map<string, string>, ps: seq<RawProject>, k: nat)
    requires k < |ps| && LastOfTitle(ps, k)
    ensures ps[k].title in AddTitles(m, ps) && AddTitles(m, ps)[ps[k].title] == ps[k].url
  {
    if k < |ps| - 1 {
      var init := ps[..|ps| - 1];
      assert init[k] == ps[k];
      assert LastOfTitle(init, k) by {
        forall j | k < j < |init|
          ensures init[j].title != init[k].title
        {
          assert init[j] == ps[j];
        }
      }
      AddTitlesLast(m, init, k);
      assert ps[|ps| - 1].title != ps[k].title;
    }
  }

  lemma {:induction false} AddTitlesKeeps(m: map<string, string>, ps: seq<RawProject>, t: string)
    requires t in m && forall j :: 0 <= j < |ps| ==> ps[j].title != t
    ensures t in AddTitles(m, ps) && AddTitles(m, ps)[t] == m[t]
  {
    if |ps| > 0 {
      var init := ps[..|ps| - 1];
      assert forall j :: 0 <= j < |init| ==> init[j] == ps[j];
      AddTitlesKeeps(m, init, t);
    }
  }

  lemma {:induction false} AddTitlesConcat(m: map<string, string>, a: seq<RawProject>, b: seq<RawProject>)
    ensures AddTitles(AddTitles(m, a), b) == AddTitles(m, a + b)
    decreases |b|
  {
    if |b| == 0 {
      assert a + b == a;
    } else {
      AddTitlesConcat(m, a, b[..|b| - 1]);
      assert (a + b)[..|a + b| - 1] == a + b[..|b| - 1];
    }
  }

  lemma AppendProject(m: map<string, string>, done: seq<RawProject>, p: RawProject)
    ensures Blocks(done + [p]) == Blocks(done) + ProjectBlock(p)
    ensures AddTitles(m, done + [p]) == AddTitles(m, done)[p.title := p.url]
  {
    assert (done + [p])[..|done|] == done;
  }

  /** The inner loop over one batch: record and append each of its projects in order. */
  method AddBatch(prompt: string, mapping: map<string, string>, ghost m0: map<string, string>, ghost before: seq<RawProject>,
                  projectBatch: seq<RawProject>)
    returns (prompt': string, mapping': map<string, string>)
    requires prompt == Blocks(before) && mapping == AddTitles(m0, before)
    ensures prompt' == Blocks(before + projectBatch) && mapping' == AddTitles(m0, before + projectBatch)
  {
    prompt', mapping' := prompt, mapping;
    assert before + projectBatch[..0] == before;
    for j := 0 to |projectBatch|
      invariant prompt' == Blocks(before + projectBatch[..j])
      invariant mapping' == AddTitles(m0, before + projectBatch[..j])
    {
      var project := projectBatch[j];
      BatchStep(m0, before, projectBatch, j);
      mapping' := mapping'[project.title := project.url];
      prompt' := prompt' + ProjectBlock(project);
    }
    assert projectBatch[..|projectBatch|] == projectBatch;
  }

  lemma BatchStep(m0: map<string, string>, before: seq<RawProject>, batch: seq<RawProject>, j: nat)
    requires j < |batch|
    ensures Blocks(before + batch[..j + 1]) == Blocks(before + batch[..j]) + ProjectBlock(batch[j])
    ensures AddTitles(m0, before + batch[..j + 1]) == AddTitles(m0, before + batch[..j])[batch[j].title := batch[j].url]
  {
    assert before + batch[..j + 1] == (before + batch[..j]) + [batch[j]];
    AppendProject(m0, before + batch[..j], batch[j]);
  }

  /**
   * The prompt and map building of one hackathon, as the source runs it: every
   * project of every batch records its URL under its title and appends its
   * block, then the instruction is appended.
   */
  method BuildPrompt(batches: seq<seq<RawProject>>, mapping: map<string, string>)
    returns (prompt: string, mapping': map<string, string>)
    ensures prompt == Blocks(Flatten(batches)) + Instruction
    ensures mapping' == AddTitles(mapping, Flatten(batches))
  {
    prompt := "";
    mapping' := mapping;
    for b := 0 to |batches|
      invariant prompt == Blocks(Flatten(batches[..b]))
      invariant mapping' == AddTitles(mapping, Flatten(batches[..b]))
    {
      prompt, mapping' := AddBatch(prompt, mapping', mapping, Flatten(batches[..b]), batches[b]);
      assert batches[..b + 1][..b] == batches[..b];
    }
    assert batches[..|batches|] == batches;
    prompt := prompt + Instruction;
  }

  /** Every project's block appears in the prompt text. */
  lemma {:induction false} BlocksContainEveryProject(ps: seq<RawProject>, k: int)
    requires 0 <= k < |ps|
    ensures Contains(Blocks(ps), ProjectBlock(ps[k]))
  {
    var init := ps[..|ps| - 1];
    var block := ProjectBlock(ps[k]);
    if k == |ps| - 1 {
      ContainsSelf(block);
      ContainsInSuffix(Blocks(init), block, block);
    } else {
      assert init[k] == ps[k];
      BlocksContainEveryProject(init, k);
      ContainsInPrefix(Blocks(init), ProjectBlock(ps[|ps| - 1]), block);
    }
  }

  /** One parsed item with the provenance of its hackathon and its project page URL attached. */
  function EnrichItem(s: Summary, h: HackathonRecord, mapping: map<string, string>): Enriched {
    Enriched(s, h.title.GetOr(""), h.location.GetOr(""), h.submissionDates.GetOr(""), h.organization.GetOr(""),
      if s.title in mapping then mapping[s.title] else "")
  }

  /**
   * What one hackathon adds to the results: nothing when the answer could not
   * be parsed, otherwise every parsed item enriched, in answer order.
   */
  function Contribution(h: HackathonRecord, prompt: string, mapping: map<string, string>,
                        summarize: string -> Option<seq<Summary>>): (r: seq<Enriched>)
    ensures summarize(prompt).None? ==> r == []
    ensures summarize(prompt).Some? ==> |r| == |summarize(prompt).value|
    ensures forall k :: 0 <= k < |r| ==>
      && r[k].item == summarize(prompt).value[k]
      && r[k].hackathonTitle == h.title.GetOr("")
      && r[k].hackathonLocation == h.location.GetOr("")
      && r[k].hackathonSubmissionDates == h.submissionDates.GetOr("")
      && r[k].hackathonOrganization == h.organization.GetOr("")
  {
    match summarize(prompt)
    case None => []
    case Some(items) => seq(|items|, k requires 0 <= k < |items| => EnrichItem(items[k], h, mapping))
  }

  /**
   * The page URL attached to an item is that of the last scraped project
   * carrying the item's title, and `""` when no scraped project carries it.
   */
  lemma DevpostUrlFromProjects(h: HackathonRecord, prompt: string, ps: seq<RawProject>,
                               summarize: string -> Option<seq<Summary>>, k: int)
    requires summarize(prompt).Some? && 0 <= k < |summarize(prompt).value|
    ensures var e := Contribution(h, prompt, AddTitles(map[], ps), summarize)[k];
      && ((forall j :: 0 <= j < |ps| ==> ps[j].title != e.item.title) ==> e.devpostUrl == "")
      && (forall j :: 0 <= j < |ps| && ps[j].title == e.item.title && LastOfTitle(ps, j) ==> e.devpostUrl == ps[j].url)
  {
    AddTitlesLastWins(map[], ps);
  }

  /** Every hackathon's batches load as lists. */
  predicate AllLoad(hacks: seq<HackathonRecord>) {
    forall k :: 0 <= k < |hacks| ==> Batches(hacks[k].projects).Some?
  }

  /** The projects of every hackathon, in file order. */
  function AllProjects(hacks: seq<HackathonRecord>): seq<RawProject>
    requires AllLoad(hacks)
  {
    if |hacks| == 0 then []
    else AllProjects(hacks[..|hacks| - 1]) + Flatten(Batches(hacks[|hacks| - 1].projects).value)
  }

  function HackathonPrompt(h: HackathonRecord): string
    requires Batches(h.projects).Some?
  {
    Blocks(Flatten(Batches(h.projects).value)) + Instruction
  }

  /**
   * Reference definition of the whole run: the contributions of the
   * hackathons in order, each enriched with the map built over this and every
   * earlier hackathon.
   */
  function Summaries(hacks: seq<HackathonRecord>, summarize: string -> Option<seq<Summary>>): seq<Enriched>
    requires AllLoad(hacks)
  {
    if |hacks| == 0 then []
    else
      var h := hacks[|hacks| - 1];
      Summaries(hacks[..|hacks| - 1], summarize)
      + Contribution(h, HackathonPrompt(h), AddTitles(map[], AllProjects(hacks)), summarize)
  }

  lemma LoadStep(hacks: seq<HackathonRecord>, n: nat)
    requires n < |hacks| && AllLoad(hacks[..n])
    ensures Batches(hacks[n].projects).Some? ==> AllLoad(hacks[..n + 1])
    ensures Batches(hacks[n].projects).None? ==> !AllLoad(hacks)
  {
    assert hacks[..n + 1][n] == hacks[n];
    assert forall k :: 0 <= k < n ==> hacks[..n + 1][k] == hacks[..n][k];
  }

  lemma SummariesStep(hacks: seq<HackathonRecord>, n: nat, summarize: string -> Option<seq<Summary>>)
    requires n < |hacks| && AllLoad(hacks[..n + 1])
    ensures AllLoad(hacks[..n])
    ensures AllProjects(hacks[..n + 1]) == AllProjects(hacks[..n]) + Flatten(Batches(hacks[n].projects).value)
    ensures Summaries(hacks[..n + 1], summarize) == Summaries(hacks[..n], summarize)
      + Contribution(hacks[n], HackathonPrompt(hacks[n]), AddTitles(map[], AllProjects(hacks[..n + 1])), summarize)
  {
    assert hacks[..n + 1][..n] == hacks[..n];
    assert forall k :: 0 <= k < n ==> hacks[..n + 1][k] == hacks[..n][k];
  }

  /**
   * The run as the source performs it. `None` stands for the uncaught error
   * when a stored page is not a list of projects: no results are written.
   */
  method ProcessHackathons(hacks: seq<HackathonRecord>, summarize: string -> Option<seq<Summary>>)
    returns (results: Option<seq<Enriched>>)
    ensures results.Some? <==> AllLoad(hacks)
    ensures results.Some? ==> results.value == Summaries(hacks, summarize)
  {
    var allResults: seq<Enriched> := [];
    var devpostMapping: map<string, string> := map[];
    for n := 0 to |hacks|
      invariant AllLoad(hacks[..n])
      invariant allResults == Summaries(hacks[..n], summarize)
      invariant devpostMapping == AddTitles(map[], AllProjects(hacks[..n]))
    {
      var hackathon := hacks[n];
      var batches := Batches(hackathon.projects);
      LoadStep(hacks, n);
      if batches.None? {
        return None;
      }
      SummariesStep(hacks, n, summarize);
      AddTitlesConcat(map[], AllProjects(hacks[..n]), Flatten(batches.value));
      var prompt;
      prompt, devpostMapping := BuildPrompt(batches.value, devpostMapping);
      match summarize(prompt) {
        case None =>
        case Some(items) =>
          var jsonData := seq(|items|, k requires 0 <= k < |items| => EnrichItem(items[k], hackathon, devpostMapping));
          allResults := allResults + jsonData;
      }
    }
    assert hacks[..|hacks|] == hacks;
    return Some(allResults);
  }
}

=== FILE: leaderboard.dfy ===
/**
 * The leaderboard page state (front/app/page.tsx): the rows, the URL field,
 * the loading flag, the error message and the three-state sort toggle. Each
 * handler is a function from the state before to the state after it. The
 * random draw and today's date are inputs.
 */
module Leaderboard {
  import opened Wrappers
  import opened Strings
  import opened StableSort

  datatype Entry = Entry(
    id: string,
    similarityPercentage: int,
    name: string,
    hackathonName: string,
    date: string,
    location: string)

  const InitialLeaderboardData: seq<Entry> := [
    Entry("1", 92, "Alex Johnson", "TechCrunch Disrupt", "2023-09-15", "San Francisco, CA"),
    Entry("2", 87, "Maria Garcia", "HackMIT", "2023-10-02", "Cambridge, MA"),
    Entry("3", 25, "James Wilson", "PennApps", "2023-08-25", "Philadelphia, PA"),
    Entry("4", 50, "Sarah Kim", "HackNY", "2023-11-10", "New York, NY"),
    Entry("5", 10, "David Chen", "TreeHacks", "2023-07-20", "Stanford, CA")
  ]

  /**
   * The key of the comparator `(a, b) => factor * (b.similarityPercentage -
   * a.similarityPercentage)`: that comparator is `key(a) - key(b)`.
   */
  function FactorKey(factor: int): Entry -> int {
    (e: Entry) => -(factor * e.similarityPercentage)
  }

  /** A copy of `board` sorted with the factor's comparator. */
  function SortedBy(board: seq<Entry>, factor: int): seq<Entry> {
    Sort(board, FactorKey(factor))
  }

  ghost predicate NonIncreasing(board: seq<Entry>) {
    forall i, j :: 0 <= i < j < |board| ==> board[i].similarityPercentage >= board[j].similarityPercentage
  }

  ghost predicate NonDecreasing(board: seq<Entry>) {
    forall i, j :: 0 <= i < j < |board| ==> board[i].similarityPercentage <= board[j].similarityPercentage
  }

  /**
   * Factor 1 orders by decreasing similarity, factor -1 by increasing
   * similarity, and factor 0 keeps the order it was given, because the sort is
   * stable; every factor keeps the same entries.
   */
  lemma FactorOrders(board: seq<Entry>, factor: int)
    ensures multiset(SortedBy(board, factor)) == multiset(board)
    ensures factor == 1 ==> NonIncreasing(SortedBy(board, factor))
    ensures factor == -1 ==> NonDecreasing(SortedBy(board, factor))
    ensures factor == 0 ==> SortedBy(board, factor) == board
  {
    SortSpec(board, FactorKey(factor));
    if factor == 0 {
      SortKeepsSorted(board, FactorKey(0));
    }
  }

  datatype Home = Home(url: string, leaderboardData: seq<Entry>, sortCount: int, isLoading: bool, error: Option<string>)

  /** The first render: the sample rows by decreasing similarity, toggle at 1, nothing loading, no error. */
  function InitialHome(): (h: Home)
    ensures NonIncreasing(h.leaderboardData) && multiset(h.leaderboardData) == multiset(InitialLeaderboardData)
    ensures h.url == "" && h.sortCount == 1 && !h.isLoading && h.error.None?
  {
    FactorOrders(InitialLeaderboardData, 1);
    Home("", SortedBy(InitialLeaderboardData, 1), 1, false, None)
  }

  const PleaseEnterUrl := "Please enter a URL"

  /**
   * The row a submit adds, numbered after the rows shown; `random` is the
   * `Math.random()` draw and `today` the date part of the current time.
   */
  function NewEntry(shown: nat, random: real, today: string): (e: Entry)
    requires 0.0 <= random < 1.0
    ensures e.id == NatToString(shown + 1)
    ensures 70 <= e.similarityPercentage <= 99
  {
    Entry(NatToString(shown + 1), (random * 30.0).Floor + 70, "New Participant", "URL Hackathon", today, "Web, Remote")
  }

  /** The state while a submit waits for its simulated request. */
  function SubmitPending(h: Home): (h': Home)
    requires h.url != ""
    ensures h'.isLoading && h'.error.None? && h'.leaderboardData == h.leaderboardData
  {
    h.(isLoading := true, error := None)
  }

  /**
   * The state once `handleSubmit` has finished. An empty URL only sets the
   * error; otherwise the rows gain exactly the new entry and are re-sorted by
   * decreasing similarity, the URL is cleared and loading is over.
   */
  function Submit(h: Home, random: real, today: string): (h': Home)
    requires 0.0 <= random < 1.0
    ensures h.url == "" ==> h' == h.(error := Some(PleaseEnterUrl))
    ensures h.url != "" ==>
      && multiset(h'.leaderboardData) == multiset(h.leaderboardData) + multiset{NewEntry(|h.leaderboardData|, random, today)}
      && NonIncreasing(h'.leaderboardData)
      && h'.url == "" && !h'.isLoading && h'.error.None? && h'.sortCount == h.sortCount
  {
    if h.url == "" then h.(error := Some(PleaseEnterUrl))
    else
      var pending := SubmitPending(h);
      var entry := NewEntry(|pending.leaderboardData|, random, today);
      FactorOrders(pending.leaderboardData + [entry], 1);
      pending.(leaderboardData := SortedBy(pending.leaderboardData + [entry], 1), url := "", isLoading := false)
  }

  /** The toggle's next value: 1 goes to -1, anything else up by one. */
  function NextSortCount(v: int): int {
    if v == 1 then -1 else v + 1
  }

  /** The toggle's value after a number of clicks from its initial 1. */
  function SortCountAfter(clicks: nat): int {
    if clicks == 0 then 1 else NextSortCount(SortCountAfter(clicks - 1))
  }

  /** From 1 the toggle cycles 1, -1, 0 for ever. */
  lemma {:induction false} SortCountCycles(clicks: nat)
    ensures SortCountAfter(clicks) == [1, -1, 0][clicks % 3]
  {
    if clicks > 0 {
      SortCountCycles(clicks - 1);
    }
  }

  /** A click on the sort icon: the sample rows re-sorted with the current factor, then the toggle advances. */
  function ClickSortHeader(h: Home): (h': Home)
    ensures h'.sortCount == NextSortCount(h.sortCount)
    ensures multiset(h'.leaderboardData) == multiset(InitialLeaderboardData)
    ensures h.sortCount == 1 ==> NonIncreasing(h'.leaderboardData)
    ensures h.sortCount == -1 ==> NonDecreasing(h'.leaderboardData)
    ensures h.sortCount == 0 ==> h'.leaderboardData == InitialLeaderboardData
    ensures h'.url == h.url && h'.isLoading == h.isLoading && h'.error == h.error
  {
    FactorOrders(InitialLeaderboardData, h.sortCount);
    h.(leaderboardData := SortedBy(InitialLeaderboardData, h.sortCount), sortCount := NextSortCount(h.sortCount))
  }

  /** Clicks and submits in any order. */
  datatype Action = Click | SubmitUrl(url: string, random: real, today: string)

  predicate ValidAction(a: Action) {
    a.SubmitUrl? ==> 0.0 <= a.random < 1.0
  }

  function Step(h: Home, a: Action): Home
    requires ValidAction(a)
  {
    match a
    case Click => ClickSortHeader(h)
    case SubmitUrl(url, random, today) => Submit(h.(url := url), random, today)
  }

  function Run(h: Home, actions: seq<Action>): Home
    requires forall k :: 0 <= k < |actions| ==> ValidAction(actions[k])
  {
    if |actions| == 0 then h else Step(Run(h, actions[..|actions| - 1]), actions[|actions| - 1])
  }

  function Clicks(actions: seq<Action>): nat {
    if |actions| == 0 then 0 else Clicks(actions[..|actions| - 1]) + if actions[|actions| - 1].Click? then 1 else 0
  }

  lemma StepSortCount(h: Home, a: Action)
    requires ValidAction(a)
    ensures Step(h, a).sortCount == if a.Click? then NextSortCount(h.sortCount) else h.sortCount
  {
  }

  /** Submits never move the toggle: after `n` clicks from a state with the toggle at 1, it holds the value `n` clicks give. */
  lemma {:induction false} ToggleFollowsClicks(start: Home, actions: seq<Action>)
    requires start.sortCount == 1
    requires forall k :: 0 <= k < |actions| ==> ValidAction(actions[k])
    ensures Run(start, actions).sortCount == SortCountAfter(Clicks(actions))
  {
    if |actions| > 0 {
      var prefix := actions[..|actions| - 1];
      ToggleFollowsClicks(start, prefix);
      StepSortCount(Run(start, prefix), actions[|actions| - 1]);
    }
  }

  /** So from the first render, or any state with the toggle at 1, it reads 1, -1, 0 for `n` mod 3 = 0, 1, 2. */
  lemma ToggleCycles(start: Home, actions: seq<Action>)
    requires start.sortCount == 1
    requires forall k :: 0 <= k < |actions| ==> ValidAction(actions[k])
    ensures Run(start, actions).sortCount == [1, -1, 0][Clicks(actions) % 3]
  {
    ToggleFollowsClicks(start, actions);
    SortCountCycles(Clicks(actions));
  }

  /** A rendered row: the rank shown and the entry. */
  datatype Row = Row(rank: nat, entry: Entry)

  /** The table rows: row i shows entry i with rank i + 1. */
  function Rows(board: seq<Entry>): (rows: seq<Row>)
    ensures |rows| == |board|
    ensures forall i :: 0 <= i < |board| ==> rows[i].rank == i + 1 && rows[i].entry == board[i]
  {
    seq(|board|, i requires 0 <= i < |board| => Row(i + 1, board[i]))
  }

  /** On a board sorted by decreasing similarity a better rank never has a lower percentage. */
  lemma RanksFollowSimilarity(board: seq<Entry>)
    requires NonIncreasing(board)
    ensures forall i, j :: 0 <= i < |board| && 0 <= j < |board| && Rows(board)[i].rank < Rows(board)[j].rank ==>
      Rows(board)[i].entry.similarityPercentage >= Rows(board)[j].entry.similarityPercentage
  {
  }

  /** The row ids, in row order. */
  function Ids(board: seq<Entry>): (ids: seq<string>)
    ensures |ids| == |board|
    ensures forall i :: 0 <= i < |board| ==> ids[i] == board[i].id
  {
    seq(|board|, i requires 0 <= i < |board| => board[i].id)
  }

  lemma IdsSnoc(a: seq<Entry>, x: Entry)
    ensures multiset(Ids(a + [x])) == multiset(Ids(a)) + multiset{x.id}
  {
    assert Ids(a + [x]) == Ids(a) + [x.id];
  }

  lemma RemoveAt<T>(b: seq<T>, k: nat)
    requires k < |b|
    ensures multiset(b[..k] + b[k + 1..]) == multiset(b) - multiset{b[k]}
  {
    assert b == b[..k] + [b[k]] + b[k + 1..];
  }

  lemma IdsRemoveAt(b: seq<Entry>, k: nat)
    requires k < |b|
    ensures multiset(Ids(b)) == multiset(Ids(b[..k] + b[k + 1..])) + multiset{b[k].id}
  {
    var ids := Ids(b);
    assert Ids(b[..k] + b[k + 1..]) == ids[..k] + ids[k + 1..];
    RemoveAt(ids, k);
  }

  /** Rows holding the same entries hold the same ids. */
  lemma {:induction false} IdsOfPermutation(a: seq<Entry>, b: seq<Entry>)
    requires multiset(a) == multiset(b)
    ensures multiset(Ids(a)) == multiset(Ids(b))
    decreases |a|
  {
    if |a| > 0 {
      var x := a[|a| - 1];
      var ai := a[..|a| - 1];
      assert a == ai + [x];
      assert x in multiset(b);
      var k :| 0 <= k < |b| && b[k] == x;
      var bi := b[..k] + b[k + 1..];
      RemoveAt(b, k);
      IdsOfPermutation(ai, bi);
      IdsRemoveAt(b, k);
      IdsSnoc(ai, x);
      calc {
        multiset(Ids(a));
        multiset(Ids(ai)) + multiset{x.id};
        multiset(Ids(bi)) + multiset{x.id};
        multiset(Ids(b));
      }
    } else {
      assert |b| == |multiset(b)| == 0;
    }
  }

  /** The ids "1" to "n". */
  function RankIds(n: nat): multiset<string> {
    if n == 0 then multiset{} else RankIds(n - 1) + multiset{NatToString(n)}
  }

  lemma {:induction false} RankIdsMembers(n: nat, k: nat)
    requires NatToString(k) in RankIds(n)
    ensures 1 <= k <= n
  {
    if NatToString(k) == NatToString(n) {
      NatToStringInjective(k, n);
    } else {
      RankIdsMembers(n - 1, k);
    }
  }

  /** No id occurs twice among "1" to "n". */
  lemma {:induction false} RankIdsDistinct(n: nat)
    ensures forall s :: RankIds(n)[s] <= 1
  {
    if n > 0 {
      RankIdsDistinct(n - 1);
      if NatToString(n) in RankIds(n - 1) {
        RankIdsMembers(n - 1, n);
      }
    }
  }

  /** The rows carry the ids "1" to "n", each once, where n is the number of rows. */
  ghost predicate NumberedRows(board: seq<Entry>) {
    multiset(Ids(board)) == RankIds(|board|)
  }

  /**
   * From a state that numbers its rows "1" to "n", such as the first render,
   * every later state does too: a click shows the sample rows again, and a
   * submit adds row "n+1" to n numbered rows. So no two rows ever share an id
   * (the row key).
   */
  lemma {:induction false} RowIdsStayUnique(start: Home, actions: seq<Action>)
    requires NumberedRows(start.leaderboardData)
    requires forall k :: 0 <= k < |actions| ==> ValidAction(actions[k])
    ensures NumberedRows(Run(start, actions).leaderboardData)
    ensures forall s :: multiset(Ids(Run(start, actions).leaderboardData))[s] <= 1
  {
    if |actions| > 0 {
      RowIdsStayUnique(start, actions[..|actions| - 1]);
      StepKeepsRowsNumbered(Run(start, actions[..|actions| - 1]), actions[|actions| - 1]);
    }
    RankIdsDistinct(|Run(start, actions).leaderboardData|);
  }

  /** The first render numbers its rows "1" to "5". */
  lemma FirstRenderNumbered()
    ensures NumberedRows(InitialHome().leaderboardData)
  {
    SampleRowsNumbered();
    IdsOfPermutation(InitialHome().leaderboardData, InitialLeaderboardData);
  }

  lemma StepKeepsRowsNumbered(h: Home, a: Action)
    requires ValidAction(a) && NumberedRows(h.leaderboardData)
    ensures NumberedRows(Step(h, a).leaderboardData)
  {
    match a
    case Click => ClickNumbersRows(h);
    case SubmitUrl(url, random, today) => SubmitKeepsRowsNumbered(h.(url := url), random, today);
  }

  lemma ClickNumbersRows(h: Home)
    ensures NumberedRows(ClickSortHeader(h).leaderboardData)
  {
    SampleRowsNumbered();
    IdsOfPermutation(ClickSortHeader(h).leaderboardData, InitialLeaderboardData);
  }

  lemma SubmitKeepsRowsNumbered(h: Home, random: real, today: string)
    requires 0.0 <= random < 1.0 && NumberedRows(h.leaderboardData)
    ensures NumberedRows(Submit(h, random, today).leaderboardData)
  {
    if h.url != "" {
      var board := h.leaderboardData;
      var entry := NewEntry(|board|, random, today);
      IdsSnoc(board, entry);
      assert NumberedRows(board + [entry]);
      IdsOfPermutation(Submit(h, random, today).leaderboardData, board + [entry]);
    }
  }

  lemma SampleRowsNumbered()
    ensures NumberedRows(InitialLeaderboardData)
  {
    SampleIds();
    FirstFiveRankIds();
  }

  lemma SampleIds()
    ensures Ids(InitialLeaderboardData) == ["1", "2", "3", "4", "5"]
  {
  }

  lemma FirstFiveRankIds()
    ensures RankIds(5) == multiset{"1", "2", "3", "4", "5"}
  {
    SmallRankId(1);
    SmallRankId(2);
    SmallRankId(3);
    SmallRankId(4);
    SmallRankId(5);
    assert RankIds(5) == RankIds(4) + multiset{"5"};
    assert RankIds(4) == RankIds(3) + multiset{"4"};
    assert RankIds(3) == RankIds(2) + multiset{"3"};
    assert RankIds(2) == RankIds(1) + multiset{"2"};
    assert RankIds(1) == multiset{"1"};
  }

  lemma SmallRankId(n: nat)
    requires 1 <= n <= 5
    ensures NatToString(n) == ["12345"[n - 1]]
  {
  }

  /** The id a submit gives its row is not the id of any row already shown. */
  lemma NewRowIdIsFresh(board: seq<Entry>, random: real, today: string)
    requires 0.0 <= random < 1.0
    requires NumberedRows(board)
    ensures NewEntry(|board|, random, today).id !in Ids(board)
  {
    var id := NatToString(|board| + 1);
    if id in Ids(board) {
      assert id in multiset(Ids(board));
      RankIdsMembers(|board|, |board| + 1);
    }
  }
}

=== FILE: records.dfy ===
/** The records that flow from the scraper through the summarizer into the document store. */
module Records {
  import opened Wrappers
  import opened Strings

  /** One item of the language model's structured answer: the `Project` schema (title, summary, features). */
  datatype Summary = Summary(title: string, summary: string, features: seq<string>)

  /**
   * A summary after enrichment: the schema item unchanged, plus the provenance
   * fields copied from its hackathon and the project page URL.
   */
  datatype Enriched = Enriched(
    item: Summary,
    hackathonTitle: string,
    hackathonLocation: string,
    hackathonSubmissionDates: string,
    hackathonOrganization: string,
    devpostUrl: string)

  /** An embedding vector as returned by the embedder; its entries are opaque here. */
  type Vector = seq<real>

  /** The storage layer's 12-byte document identifier. */
  datatype ObjectId = ObjectId(bytes: seq<byte>)

  /** A stored document: the enriched record and, once indexed, its `embedding` field. */
  datatype Doc = Doc(record: Enriched, embedding: Option<Vector>)
}

=== FILE: scrape.dfy ===
/**
 * The scraper (back/main.py). HTML is abstracted: a project page is given by
 * its two meta tags, the children of the divs of its details column and the
 * anchor hrefs in that column; a gallery page by its status, text and hrefs.
 * Fetching a URL is a function parameter.
 */
module Scrape {
  import opened Wrappers
  import opened Strings

  /** A direct child node of an element: its tag name (`None` for a bare text node) and its stripped text. */
  datatype Node = Node(name: Option<string>, text: string)

  /**
   * The `app-details-left` column: for each of its direct child `div`s the
   * list of that div's child nodes, and every anchor `href` inside the column
   * in document order.
   */
  datatype AppDetails = AppDetails(divs: seq<seq<Node>>, hrefs: seq<string>)

  datatype Anchor = Anchor(text: string, href: string)

  /**
   * A project page with its `built-with` section already removed: the
   * `og:title` and `og:description` contents (`None` when the meta tag is
   * missing), the details column if present, and the first
   * `.software-list-content > p > a` anchor if present.
   */
  datatype ProjectPage = ProjectPage(
    ogTitle: Option<string>,
    ogDescription: Option<string>,
    appDetails: Option<AppDetails>,
    softwareLink: Option<Anchor>)

  /** The record scraped from one project page. */
  datatype RawProject = RawProject(title: string, description: string, story: string, github: string, url: string)

  const NoTitle := "No Title"
  const NoDescription := "No Description"
  const GithubMarker := "https://github.com/"

  /** What one child node adds to the story: headings end in `": "`, lists in `","`, other tags add nothing. */
  function StoryPiece(n: Node): string {
    if n.name == Some("h2") then n.text + ": "
    else if n.name == Some("p") then n.text
    else if n.name == Some("ul") then n.text + ","
    else ""
  }

  /** Reference definition of the story: the pieces of the nodes, concatenated in order. */
  function StoryOf(nodes: seq<Node>): string {
    if |nodes| == 0 then "" else StoryPiece(nodes[0]) + StoryOf(nodes[1..])
  }

  lemma {:induction false} StoryOfConcat(a: seq<Node>, b: seq<Node>)
    ensures StoryOf(a + b) == StoryOf(a) + StoryOf(b)
  {
    if |a| > 0 {
      assert (a + b)[1..] == a[1..] + b;
      StoryOfConcat(a[1..], b);
    } else {
      assert a + b == b;
    }
  }

  /** Nodes other than `h2`, `p` and `ul` leave the story as it is. */
  lemma {:induction false} StoryOfIgnoresOtherTags(nodes: seq<Node>)
    requires forall k :: 0 <= k < |nodes| ==> nodes[k].name !in {Some("h2"), Some("p"), Some("ul")}
    ensures StoryOf(nodes) == ""
  {
    if |nodes| > 0 {
      StoryOfIgnoresOtherTags(nodes[1..]);
    }
  }

  /** The story fold as the scraper runs it: one pass over the children, appending as it goes. */
  method AssembleStory(nodes: seq<Node>) returns (story: string)
    ensures story == StoryOf(nodes)
  {
    story := "";
    var k := 0;
    while k < |nodes|
      invariant 0 <= k <= |nodes|
      invariant story == StoryOf(nodes[..k])
    {
      var i := nodes[k];
      StoryOfConcat(nodes[..k], [i]);
      assert nodes[..k + 1] == nodes[..k] + [i];
      if i.name == Some("h2") {
        story := story + i.text + ": ";
      }
      if i.name == Some("p") {
        story := story + i.text;
      }
      if i.name == Some("ul") {
        story := story + i.text + ",";
      }
      k := k + 1;
    }
    assert nodes[..k] == nodes;
  }

  /** The story before stripping: the fold over the second direct child div, or `""` when there is none. */
  function RawStory(page: ProjectPage): (r: string)
    ensures page.appDetails.None? || |page.appDetails.value.divs| < 2 ==> r == ""
  {
    if page.appDetails.Some? && |page.appDetails.value.divs| >= 2 then StoryOf(page.appDetails.value.divs[1])
    else ""
  }

  /** The GitHub link of a page: the last href containing the GitHub marker, `""` when none does. */
  function LastGithubLink(hrefs: seq<string>): (r: string)
    ensures r == "" <==> forall k :: 0 <= k < |hrefs| ==> !Contains(hrefs[k], GithubMarker)
  {
    if |hrefs| == 0 then ""
    else if Contains(hrefs[|hrefs| - 1], GithubMarker) then hrefs[|hrefs| - 1]
    else
      var init := hrefs[..|hrefs| - 1];
      var r := LastGithubLink(init);
      assert forall k :: 0 <= k < |init| ==> init[k] == hrefs[k];
      r
  }

  /** A link found is the last href that mentions the marker. */
  lemma {:induction false} LastGithubLinkIsLast(hrefs: seq<string>)
    ensures var r := LastGithubLink(hrefs);
      r != "" ==>
        exists k :: 0 <= k < |hrefs| && hrefs[k] == r && Contains(r, GithubMarker)
          && forall j :: k < j < |hrefs| ==> !Contains(hrefs[j], GithubMarker)
  {
    if |hrefs| > 0 && !Contains(hrefs[|hrefs| - 1], GithubMarker) {
      var init := hrefs[..|hrefs| - 1];
      LastGithubLinkIsLast(init);
      if LastGithubLink(init) != "" {
        var k :| 0 <= k < |init| && init[k] == LastGithubLink(init) && Contains(init[k], GithubMarker)
          && forall j :: k < j < |init| ==> !Contains(init[j], GithubMarker);
        assert hrefs[k] == init[k];
        assert forall j :: k < j < |hrefs| ==> !Contains(hrefs[j], GithubMarker) by {
          forall j | k < j < |hrefs|
            ensures !Contains(hrefs[j], GithubMarker)
          {
            if j < |init| {
              assert hrefs[j] == init[j];
            }
          }
        }
      }
    }
  }

  /** The link scan as the scraper runs it: every matching href overwrites the previous one. */
  method FindGithubLink(hrefs: seq<string>) returns (github: string)
    ensures github == LastGithubLink(hrefs)
  {
    github := "";
    var k := 0;
    while k < |hrefs|
      invariant 0 <= k <= |hrefs|
      invariant github == LastGithubLink(hrefs[..k])
    {
      var href := hrefs[k];
      assert hrefs[..k + 1][..k] == hrefs[..k];
      if Contains(href, GithubMarker) {
        github := href;
      }
      k := k + 1;
    }
    assert hrefs[..k] == hrefs;
  }

  /** The page's GitHub link: the last app-details href naming GitHub, `""` without one. */
  function GithubLinkOf(page: ProjectPage): (g: string)
    ensures g == "" || Contains(g, GithubMarker)
    ensures page.appDetails.None? ==> g == ""
    ensures page.appDetails.Some? ==> g == LastGithubLink(page.appDetails.value.hrefs)
  {
    if page.appDetails.None? then ""
    else
      LastGithubLinkIsLast(page.appDetails.value.hrefs);
      LastGithubLink(page.appDetails.value.hrefs)
  }

  /** One project page turned into a raw record. */
  function FetchHackathonData(url: string, page: ProjectPage): (r: RawProject)
    ensures r.url == url
    ensures r.title == page.ogTitle.GetOr(NoTitle) && r.description == page.ogDescription.GetOr(NoDescription)
    ensures IsStripped(r.story)
    ensures r.story == Strip(RawStory(page))
    ensures r.github == GithubLinkOf(page)
    ensures r.github == "" || Contains(r.github, GithubMarker)
    ensures page.appDetails.None? ==> r.github == ""
  {
    var github := GithubLinkOf(page);
    RawProject(page.ogTitle.GetOr(NoTitle), page.ogDescription.GetOr(NoDescription), Strip(RawStory(page)), github, url)
  }

  /** A gallery page: its HTTP status, its visible text and its anchor hrefs in document order. */
  datatype ListingPage = ListingPage(status: int, text: string, hrefs: seq<string>)

  /**
   * What fetching one gallery page yields: the `404` sentinel for an empty
   * gallery, the scraped projects, or Python's `None` for a non-200 response.
   */
  datatype Links = NoSubmissions | Projects(items: seq<RawProject>) | NoResponse

  const NoSubmissionsText := "There are no submissions which match your criteria."
  const SoftwarePrefix := "https://devpost.com/software/"

  /** The hrefs that point at project pages, in document order. */
  function ProjectHrefs(hrefs: seq<string>): (r: seq<string>)
    ensures |r| <= |hrefs|
    ensures forall k :: 0 <= k < |r| ==> IsPrefix(SoftwarePrefix, r[k])
    ensures forall k :: 0 <= k < |hrefs| && IsPrefix(SoftwarePrefix, hrefs[k]) ==> hrefs[k] in r
    ensures forall k :: 0 <= k < |r| ==> r[k] in hrefs
  {
    if |hrefs| == 0 then []
    else
      var rest := ProjectHrefs(hrefs[1..]);
      assert forall k :: 1 <= k < |hrefs| ==> hrefs[k] == hrefs[1..][k - 1];
      if IsPrefix(SoftwarePrefix, hrefs[0]) then [hrefs[0]] + rest else rest
  }

  /** Filtering keeps the relative order of the hrefs it keeps. */
  lemma {:induction false} ProjectHrefsConcat(a: seq<string>, b: seq<string>)
    ensures ProjectHrefs(a + b) == ProjectHrefs(a) + ProjectHrefs(b)
  {
    if |a| > 0 {
      assert (a + b)[1..] == a[1..] + b;
      ProjectHrefsConcat(a[1..], b);
    } else {
      assert a + b == b;
    }
  }

  /** One gallery page: stop sentinel, the projects behind its project links, or nothing for a failed request. */
  function FetchProjectLinks(listing: ListingPage, pageAt: string -> ProjectPage): (r: Links)
    ensures r.NoResponse? <==> listing.status != 200
    ensures r.NoSubmissions? <==> listing.status == 200 && Contains(listing.text, NoSubmissionsText)
    ensures r.Projects? ==> |r.items| == |ProjectHrefs(listing.hrefs)|
    ensures r.Projects? ==> forall k :: 0 <= k < |r.items| ==> r.items[k].url == ProjectHrefs(listing.hrefs)[k]
    ensures r.Projects? ==>
      forall k :: 0 <= k < |r.items| ==> IsPrefix(SoftwarePrefix, r.items[k].url) && r.items[k].url in listing.hrefs
    ensures r.Projects? ==>
      forall k :: 0 <= k < |r.items| ==> r.items[k] == FetchHackathonData(r.items[k].url, pageAt(r.items[k].url))
  {
    if listing.status == 200 then
      if Contains(listing.text, NoSubmissionsText) then NoSubmissions
      else
        var links := ProjectHrefs(listing.hrefs);
        Projects(seq(|links|, k requires 0 <= k < |links| => FetchHackathonData(links[k], pageAt(links[k]))))
    else NoResponse
  }

  /** The pagination loop stops at the `404` sentinel or an empty list, and at nothing else. */
  predicate Stops(r: Links) {
    r.NoSubmissions? || (r.Projects? && r.items == [])
  }

  /** The URL of gallery page `page`. */
  function GalleryUrl(base: string, page: nat): string {
    base + "project-gallery" + "?page=" + NatToString(page)
  }

  /** Distinct pages of one gallery are distinct URLs. */
  lemma GalleryUrlInjective(base: string, p: nat, q: nat)
    ensures GalleryUrl(base, p) == GalleryUrl(base, q) <==> p == q
  {
    var prefix := base + "project-gallery" + "?page=";
    if GalleryUrl(base, p) == GalleryUrl(base, q) {
      assert NatToString(p) == GalleryUrl(base, p)[|prefix|..];
      assert NatToString(q) == GalleryUrl(base, q)[|prefix|..];
      NatToStringInjective(p, q);
    }
  }

  function GalleryPage(base: string, page: nat, listingAt: string -> ListingPage, pageAt: string -> ProjectPage): Links {
    FetchProjectLinks(listingAt(GalleryUrl(base, page)), pageAt)
  }

  /** Some page of the gallery stops the loop (the source loops for ever otherwise). */
  ghost predicate GalleryEnds(base: string, listingAt: string -> ListingPage, pageAt: string -> ProjectPage) {
    exists p: nat :: 1 <= p && Stops(GalleryPage(base, p, listingAt, pageAt))
  }

  /** `projects` are gallery pages 1, 2, ... in order. */
  ghost predicate FirstPages(base: string, projects: seq<Links>, listingAt: string -> ListingPage, pageAt: string -> ProjectPage) {
    forall j :: 0 <= j < |projects| ==> projects[j] == GalleryPage(base, j + 1, listingAt, pageAt)
  }

  lemma FirstPagesSnoc(base: string, projects: seq<Links>, listingAt: string -> ListingPage, pageAt: string -> ProjectPage)
    requires FirstPages(base, projects, listingAt, pageAt)
    ensures FirstPages(base, projects + [GalleryPage(base, |projects| + 1, listingAt, pageAt)], listingAt, pageAt)
  {
  }

  /** `projects` holds gallery pages 1, 2, ... in order, none of them stops, and the page after them stops. */
  ghost predicate CollectedGallery(base: string, projects: seq<Links>, listingAt: string -> ListingPage, pageAt: string -> ProjectPage) {
    && FirstPages(base, projects, listingAt, pageAt)
    && (forall j :: 0 <= j < |projects| ==> !Stops(projects[j]))
    && Stops(GalleryPage(base, |projects| + 1, listingAt, pageAt))
  }

  datatype Theme = Theme(name: string)

  /** One hackathon as listed in the input file. */
  datatype HackathonListing = HackathonListing(
    title: Option<string>,
    location: Option<string>,
    url: string,
    submissionDates: Option<string>,
    themes: seq<Theme>,
    organization: Option<string>,
    winnersAnnounced: bool)

  /** One hackathon as written to the output file, with the pages of projects scraped from its gallery. */
  datatype HackathonRecord = HackathonRecord(
    title: Option<string>,
    location: Option<string>,
    url: string,
    submissionDates: Option<string>,
    themes: seq<string>,
    organization: Option<string>,
    winners: bool,
    projects: seq<Links>)

  /** The theme names, in input order. */
  function ThemeNames(themes: seq<Theme>): (r: seq<string>)
    ensures |r| == |themes| && forall k :: 0 <= k < |r| ==> r[k] == themes[k].name
  {
    if |themes| == 0 then [] else [themes[0].name] + ThemeNames(themes[1..])
  }

  /**
   * The page loop for one hackathon: fetch gallery pages from page 1 upwards,
   * keeping every page until the first one that stops the loop. The scraper
   * keeps the page counter across hackathons and resets it to 1 on leaving
   * the loop, so each hackathon starts again at page 1, as here.
   */
  method ScrapeGallery(base: string, listingAt: string -> ListingPage, pageAt: string -> ProjectPage)
    returns (projects: seq<Links>)
    requires GalleryEnds(base, listingAt, pageAt)
    ensures CollectedGallery(base, projects, listingAt, pageAt)
  {
    projects := [];
    var i: nat := 1;
    ghost var stop: nat :| 1 <= stop && Stops(GalleryPage(base, stop, listingAt, pageAt));
    while true
      invariant 1 <= i <= stop
      invariant |projects| == i - 1
      invariant FirstPages(base, projects, listingAt, pageAt)
      invariant forall j :: 0 <= j < |projects| ==> !Stops(projects[j])
      decreases stop - i
    {
      var returnData := FetchProjectLinks(listingAt(GalleryUrl(base, i)), pageAt);
      assert returnData == GalleryPage(base, i, listingAt, pageAt);
      if returnData.NoSubmissions? || returnData == Projects([]) {
        assert Stops(GalleryPage(base, |projects| + 1, listingAt, pageAt));
        break;
      }
      assert i < stop;
      FirstPagesSnoc(base, projects, listingAt, pageAt);
      projects := projects + [returnData];
      i := i + 1;
    }
  }

  /**
   * As written, a failed request does not stop the page loop: its `None` is
   * neither the sentinel nor an empty list, so it is stored and the next page
   * requested. A gallery whose every request fails never ends.
   */
  lemma FailingGalleryNeverEnds(base: string, listingAt: string -> ListingPage, pageAt: string -> ProjectPage)
    requires forall u :: listingAt(u).status != 200
    ensures forall p: nat :: 1 <= p ==> GalleryPage(base, p, listingAt, pageAt) == NoResponse
    ensures !GalleryEnds(base, listingAt, pageAt)
  {
  }

  /** The corrected stopping test: a failed request ends the loop as well. */
  predicate Halts(r: Links) {
    Stops(r) || r.NoResponse?
  }

  /** Some page of the gallery halts the corrected loop. */
  ghost predicate GalleryHalts(base: string, listingAt: string -> ListingPage, pageAt: string -> ProjectPage) {
    exists p: nat :: 1 <= p && Halts(GalleryPage(base, p, listingAt, pageAt))
  }

  /** `projects` holds gallery pages 1, 2, ... in order, none of them halts, and the page after them halts. */
  ghost predicate CollectedUntilHalt(base: string, projects: seq<Links>, listingAt: string -> ListingPage, pageAt: string -> ProjectPage) {
    && FirstPages(base, projects, listingAt, pageAt)
    && (forall j :: 0 <= j < |projects| ==> !Halts(projects[j]))
    && Halts(GalleryPage(base, |projects| + 1, listingAt, pageAt))
  }

  /** The page loop with the corrected test: it keeps only non-empty project lists. */
  method ScrapeGalleryChecked(base: string, listingAt: string -> ListingPage, pageAt: string -> ProjectPage)
    returns (projects: seq<Links>)
    requires GalleryHalts(base, listingAt, pageAt)
    ensures CollectedUntilHalt(base, projects, listingAt, pageAt)
    ensures forall j :: 0 <= j < |projects| ==> projects[j].Projects? && projects[j].items != []
  {
    projects := [];
    var i: nat := 1;
    ghost var stop: nat :| 1 <= stop && Halts(GalleryPage(base, stop, listingAt, pageAt));
    while true
      invariant 1 <= i <= stop
      invariant |projects| == i - 1
      invariant FirstPages(base, projects, listingAt, pageAt)
      invariant forall j :: 0 <= j < |projects| ==> !Halts(projects[j])
      decreases stop - i
    {
      var returnData := FetchProjectLinks(listingAt(GalleryUrl(base, i)), pageAt);
      assert returnData == GalleryPage(base, i, listingAt, pageAt);
      if returnData.NoSubmissions? || returnData == Projects([]) || returnData.NoResponse? {
        assert Halts(GalleryPage(base, |projects| + 1, listingAt, pageAt));
        break;
      }
      assert i < stop;
      FirstPagesSnoc(base, projects, listingAt, pageAt);
      projects := projects + [returnData];
      i := i + 1;
    }
  }

  /** The corrected loop's pages are determined by the gallery. */
  lemma CollectedUntilHaltUnique(base: string, a: seq<Links>, b: seq<Links>, listingAt: string -> ListingPage, pageAt: string -> ProjectPage)
    requires CollectedUntilHalt(base, a, listingAt, pageAt)
    requires CollectedUntilHalt(base, b, listingAt, pageAt)
    ensures a == b
  {
    FirstHalt(base, a, listingAt, pageAt);
    FirstHalt(base, b, listingAt, pageAt);
    assert |a| == |b|;
  }

  /** The corrected loop stops at the first halting page. */
  lemma FirstHalt(base: string, projects: seq<Links>, listingAt: string -> ListingPage, pageAt: string -> ProjectPage)
    requires CollectedUntilHalt(base, projects, listingAt, pageAt)
    ensures forall p: nat :: 1 <= p <= |projects| ==> !Halts(GalleryPage(base, p, listingAt, pageAt))
    ensures Halts(GalleryPage(base, |projects| + 1, listingAt, pageAt))
  {
    forall p: nat | 1 <= p <= |projects|
      ensures !Halts(GalleryPage(base, p, listingAt, pageAt))
    {
      assert projects[p - 1] == GalleryPage(base, p, listingAt, pageAt);
    }
  }

  /** With the corrected test, a gallery whose every request fails ends at once with no pages. */
  lemma FailingGalleryHalts(base: string, listingAt: string -> ListingPage, pageAt: string -> ProjectPage)
    requires forall u :: listingAt(u).status != 200
    ensures GalleryHalts(base, listingAt, pageAt)
    ensures CollectedUntilHalt(base, [], listingAt, pageAt)
  {
    assert listingAt(GalleryUrl(base, 1)).status != 200;
    assert Halts(GalleryPage(base, 1, listingAt, pageAt));
  }

  /** Where no request fails, the corrected loop keeps exactly the pages the loop as written keeps. */
  lemma CheckedAgreesWithoutFailures(base: string, projects: seq<Links>, listingAt: string -> ListingPage, pageAt: string -> ProjectPage)
    requires CollectedGallery(base, projects, listingAt, pageAt)
    requires forall j :: 0 <= j < |projects| ==> !projects[j].NoResponse?
    ensures CollectedUntilHalt(base, projects, listingAt, pageAt)
  {
  }

  /** `r` is the record written for `h`: its fields copied, its theme names, and its gallery pages. */
  ghost predicate RecordOf(h: HackathonListing, r: HackathonRecord, listingAt: string -> ListingPage, pageAt: string -> ProjectPage) {
    && r.title == h.title && r.location == h.location && r.url == h.url
    && r.submissionDates == h.submissionDates && r.organization == h.organization
    && r.winners == h.winnersAnnounced
    && r.themes == ThemeNames(h.themes)
    && CollectedGallery(h.url, r.projects, listingAt, pageAt)
  }

  /** The scraper's main loop: one record per hackathon, in input order. */
  method ScrapeHackathons(hacks: seq<HackathonListing>, listingAt: string -> ListingPage, pageAt: string -> ProjectPage)
    returns (records: seq<HackathonRecord>)
    requires forall k :: 0 <= k < |hacks| ==> GalleryEnds(hacks[k].url, listingAt, pageAt)
    ensures |records| == |hacks|
    ensures forall k :: 0 <= k < |hacks| ==> RecordOf(hacks[k], records[k], listingAt, pageAt)
  {
    records := [];
    for n := 0 to |hacks|
      invariant |records| == n
      invariant forall k :: 0 <= k < n ==> RecordOf(hacks[k], records[k], listingAt, pageAt)
    {
      var hackathon := hacks[n];
      var projects := ScrapeGallery(hackathon.url, listingAt, pageAt);
      var sample := HackathonRecord(hackathon.title, hackathon.location, hackathon.url, hackathon.submissionDates,
        ThemeNames(hackathon.themes), hackathon.organization, hackathon.winnersAnnounced, projects);
      records := records + [sample];
    }
  }
}

=== FILE: search.dfy ===
/**
 * The similarity query (back/app.py): the aggregation pipeline built for a
 * vector search, and the `/analyze` handler that scrapes a project page,
 * summarizes it, searches with its text and serializes the hits. The
 * summarizer, the embedder and the aggregation engine are function
 * parameters.
 */
module Search {
  import opened Wrappers
  import opened Strings
  import opened Records
  import opened Embedding
  import opened Scrape

  const VectorIndexName := "vector_index_projects"
  const EmbeddingPath := "embedding"
  const NumCandidates := 100
  const DefaultLimit := 5

  /** The `$vectorSearch` stage; `filter` is the `hackathon_title` equality clause when present. */
  datatype VectorSearchStage = VectorSearchStage(
    index: string,
    path: string,
    queryVector: Vector,
    numCandidates: int,
    limit: int,
    filter: Option<string>)

  /** The fields the `$project` stage keeps; it adds the search score as `score`. */
  const ProjectedFields := ["_id", "title", "summary", "features", "hackathon_title"]

  datatype Pipeline = Pipeline(search: VectorSearchStage, projectedFields: seq<string>, withScore: bool)

  /** Python truthiness of an optional string. */
  predicate Truthy(s: Option<string>) {
    s.Some? && s.value != ""
  }

  /**
   * The pipeline `perform_vector_search` sends, or `None` for its early exit
   * when the query embedding is missing or empty.
   */
  function SearchPipeline(queryEmbedding: Option<Vector>, limit: int, hackathonFilter: Option<string>): (r: Option<Pipeline>)
    ensures r.None? <==> !Usable(queryEmbedding)
    ensures r.Some? ==>
      && r.value.search.queryVector == queryEmbedding.value
      && r.value.search.index == VectorIndexName
      && r.value.search.path == EmbeddingPath
      && r.value.search.numCandidates == NumCandidates
      && r.value.search.limit == limit
      && r.value.projectedFields == ProjectedFields
      && r.value.withScore
    ensures r.Some? ==> (r.value.search.filter.Some? <==> Truthy(hackathonFilter))
    ensures r.Some? && Truthy(hackathonFilter) ==> r.value.search.filter == hackathonFilter
  {
    if !Usable(queryEmbedding) then None
    else
      var stage := VectorSearchStage(VectorIndexName, EmbeddingPath, queryEmbedding.value, NumCandidates, limit, None);
      var stage := if Truthy(hackathonFilter) then stage.(filter := hackathonFilter) else stage;
      Some(Pipeline(stage, ProjectedFields, true))
  }

  /** One projected search result. */
  datatype Hit = Hit(id: ObjectId, title: string, summary: string, features: seq<string>, hackathonTitle: string, score: real)

  /** A result as serialized, with `_id` replaced by its string form. */
  datatype JsonHit = JsonHit(id: string, title: string, summary: string, features: seq<string>, hackathonTitle: string, score: real)

  /** `str(ObjectId)`: the identifier's bytes as lowercase hex. */
  function ObjectIdString(id: ObjectId): (s: string)
    ensures |s| == 2 * |id.bytes|
  {
    Hex(id.bytes)
  }

  function ToJson(h: Hit): JsonHit {
    JsonHit(ObjectIdString(h.id), h.title, h.summary, h.features, h.hackathonTitle, h.score)
  }

  /** Reads a serialized hit back; `None` when its id is not a hex string of whole bytes. */
  function FromJson(j: JsonHit): Option<Hit> {
    if |j.id| % 2 == 0 && forall k :: 0 <= k < |j.id| ==> IsLowerHex(j.id[k]) then
      Some(Hit(ObjectId(Unhex(j.id)), j.title, j.summary, j.features, j.hackathonTitle, j.score))
    else None
  }

  /** Serializing a hit loses nothing: its id string reads back as the same identifier. */
  lemma JsonRoundTrip(h: Hit)
    ensures FromJson(ToJson(h)) == Some(h)
  {
    UnhexHex(h.id.bytes);
  }

  /** A 12-byte identifier prints as 24 hex digits. */
  lemma ObjectIdStringLength(id: ObjectId)
    requires |id.bytes| == 12
    ensures |ObjectIdString(id)| == 24
  {
  }

  /** The conversion loop of `/analyze`: every result in order, with its `_id` stringified. */
  function JsonResults(hits: seq<Hit>): (r: seq<JsonHit>)
    ensures |r| == |hits|
    ensures forall k :: 0 <= k < |r| ==> FromJson(r[k]) == Some(hits[k])
  {
    if |hits| == 0 then []
    else
      JsonRoundTrip(hits[0]);
      [ToJson(hits[0])] + JsonResults(hits[1..])
  }

  /** A result cursor and how far it has been read. */
  datatype Cursor = Cursor(items: seq<Hit>, pos: nat)

  /** What iterating the cursor still yields. */
  function Remaining(c: Cursor): seq<Hit> {
    if c.pos <= |c.items| then c.items[c.pos..] else []
  }

  /** The cursor after a `for` loop has read it to the end. */
  function Exhaust(c: Cursor): (r: Cursor)
    ensures Remaining(r) == []
    ensures r.items == c.items
  {
    c.(pos := |c.items|)
  }

  /**
   * `perform_vector_search` as written: `None` on the early exit or a failed
   * aggregation, otherwise the aggregation's cursor after its print loop has
   * read every hit.
   */
  function PerformVectorSearch(queryEmbedding: Option<Vector>, limit: int, hackathonFilter: Option<string>,
                               aggregate: Pipeline -> Option<seq<Hit>>): (r: Option<Cursor>)
    ensures r.None? <==>
      !Usable(queryEmbedding) || aggregate(SearchPipeline(queryEmbedding, limit, hackathonFilter).value).None?
    ensures r.Some? ==> r.value.items == aggregate(SearchPipeline(queryEmbedding, limit, hackathonFilter).value).value
    ensures r.Some? ==> Remaining(r.value) == []
  {
    match SearchPipeline(queryEmbedding, limit, hackathonFilter)
    case None => None
    case Some(pipeline) =>
      match aggregate(pipeline)
      case None => None
      case Some(hits) => Some(Exhaust(Cursor(hits, 0)))
  }

  /** `perform_vector_search` with the hits listed before they are printed, so they are still there to return. */
  function PerformVectorSearchListed(queryEmbedding: Option<Vector>, limit: int, hackathonFilter: Option<string>,
                                     aggregate: Pipeline -> Option<seq<Hit>>): (r: Option<seq<Hit>>)
    ensures !Usable(queryEmbedding) ==> r.None?
    ensures Usable(queryEmbedding) ==> r == aggregate(SearchPipeline(queryEmbedding, limit, hackathonFilter).value)
  {
    match SearchPipeline(queryEmbedding, limit, hackathonFilter)
    case None => None
    case Some(pipeline) => aggregate(pipeline)
  }

  /** The scraped record `/analyze` summarizes. */
  datatype ScrapedDoc = ScrapedDoc(
    title: string, description: string, story: string, github: string, url: string,
    submittedTo: string, hackathon: string)

  /** The HTTP answer: the JSON array, or a server error for an exception the handler does not catch. */
  datatype Response = ServerError | Json(results: seq<JsonHit>)

  /** The story of `/analyze`: the assembled story, or the description when the assembled story is empty, stripped. */
  function AnalyzeStory(page: ProjectPage): string {
    var story := RawStory(page);
    Strip(if story == "" then page.ogDescription.GetOr(NoDescription) else story)
  }

  /** `/analyze` scrapes a page the way the scraper does, except that an empty story falls back to the description. */
  lemma AnalyzeStoryMatchesScraper(url: string, page: ProjectPage)
    ensures RawStory(page) != "" ==> AnalyzeStory(page) == FetchHackathonData(url, page).story
    ensures RawStory(page) == "" ==> AnalyzeStory(page) == Strip(FetchHackathonData(url, page).description)
    ensures IsStripped(AnalyzeStory(page))
  {
  }

  /** The page part of `/analyze`; `None` when the submission link is missing and the handler fails. */
  function AnalyzeScrape(url: string, page: ProjectPage): (r: Option<ScrapedDoc>)
    ensures r.None? <==> page.softwareLink.None?
    ensures r.Some? ==>
      r.value.story == AnalyzeStory(page) && r.value.url == url && r.value.submittedTo == Strip(page.softwareLink.value.text)
    ensures r.Some? ==> r.value.title == page.ogTitle.GetOr(NoTitle) && r.value.description == page.ogDescription.GetOr(NoDescription)
    ensures r.Some? ==> r.value.hackathon == page.softwareLink.value.href
  {
    match page.softwareLink
    case None => None
    case Some(link) =>
      var github := GithubLinkOf(page);
      Some(ScrapedDoc(page.ogTitle.GetOr(NoTitle), page.ogDescription.GetOr(NoDescription), AnalyzeStory(page),
        github, url, Strip(link.text), link.href))
  }

  /** The GitHub link `/analyze` stores is the one the scraper stores: the last details-column href naming GitHub. */
  lemma AnalyzeGithubMatchesScraper(url: string, page: ProjectPage)
    requires page.softwareLink.Some?
    ensures AnalyzeScrape(url, page).value.github == FetchHackathonData(url, page).github
  {
  }

  /**
   * The query vector `/analyze` searches with. The embedder is not consulted
   * when there is no text: the external call with no input fails.
   */
  function QueryEmbedding(s: Summary, embed: string -> Option<Vector>): Option<Vector> {
    var text := CombineSummaryAndFeatures(s.summary, s.features);
    if text.Some? then embed(text.value) else None
  }

  /** `/analyze` as written, from the fetched page to the response. */
  function Analyze(url: string, page: ProjectPage, summarize: ScrapedDoc -> Option<Summary>,
                   embed: string -> Option<Vector>, aggregate: Pipeline -> Option<seq<Hit>>): Response
  {
    match AnalyzeScrape(url, page)
    case None => ServerError
    case Some(doc) =>
      match summarize(doc)
      case None => ServerError
      case Some(s) =>
        match PerformVectorSearch(QueryEmbedding(s, embed), DefaultLimit, None, aggregate)
        case None => ServerError
        case Some(cursor) => Json(JsonResults(Remaining(cursor)))
  }

  /** `/analyze` with the search hits listed before printing. */
  function AnalyzeListed(url: string, page: ProjectPage, summarize: ScrapedDoc -> Option<Summary>,
                         embed: string -> Option<Vector>, aggregate: Pipeline -> Option<seq<Hit>>): Response
  {
    match AnalyzeScrape(url, page)
    case None => ServerError
    case Some(doc) =>
      match summarize(doc)
      case None => ServerError
      case Some(s) =>
        match PerformVectorSearchListed(QueryEmbedding(s, embed), DefaultLimit, None, aggregate)
        case None => ServerError
        case Some(hits) => Json(JsonResults(hits))
  }

  /** As written, `/analyze` never answers with a search hit: the print loop has drained the cursor. */
  lemma AnalyzeReturnsNoHits(url: string, page: ProjectPage, summarize: ScrapedDoc -> Option<Summary>,
                             embed: string -> Option<Vector>, aggregate: Pipeline -> Option<seq<Hit>>)
    ensures Analyze(url, page, summarize, embed, aggregate) in {ServerError, Json([])}
  {
  }

  /**
   * With the hits listed first, `/analyze` answers with the hits of the
   * default search for the scraped page's summary, in the engine's order,
   * each readable back to the same hit; it fails exactly where the handler
   * as written fails.
   */
  lemma AnalyzeListedReturnsHits(url: string, page: ProjectPage, summarize: ScrapedDoc -> Option<Summary>,
                                 embed: string -> Option<Vector>, aggregate: Pipeline -> Option<seq<Hit>>)
    ensures var r := AnalyzeListed(url, page, summarize, embed, aggregate);
      var doc := AnalyzeScrape(url, page);
      var s := if doc.Some? then summarize(doc.value) else None;
      var p := if s.Some? then SearchPipeline(QueryEmbedding(s.value, embed), DefaultLimit, None) else None;
      var hits := if p.Some? then aggregate(p.value) else None;
      && (r.ServerError? <==> Analyze(url, page, summarize, embed, aggregate).ServerError?)
      && (r.Json? <==> hits.Some?)
      && (r.Json? ==> r.results == JsonResults(hits.value))
      && (r.Json? ==> forall k :: 0 <= k < |r.results| ==> FromJson(r.results[k]) == Some(hits.value[k]))
  {
  }

  /** Any non-empty search shows the difference: the listed handler returns the hits, the handler as written none. */
  lemma AnalyzeLosesHits(url: string, page: ProjectPage, summarize: ScrapedDoc -> Option<Summary>,
                         embed: string -> Option<Vector>, aggregate: Pipeline -> Option<seq<Hit>>)
    requires AnalyzeListed(url, page, summarize, embed, aggregate).Json?
    requires AnalyzeListed(url, page, summarize, embed, aggregate).results != []
    ensures Analyze(url, page, summarize, embed, aggregate) == Json([])
    ensures Analyze(url, page, summarize, embed, aggregate) != AnalyzeListed(url, page, summarize, embed, aggregate)
  {
  }

  const ExampleUrl := "https://devpost.com/software/scan"
  const ExamplePage := ProjectPage(None, None, None, Some(Anchor("HackMIT", "https://hackmit.devpost.com/")))
  const ExampleSummary := Summary("Scan", "reads receipts", [])
  const ExampleHit := Hit(ObjectId(seq(12, _ => 0 as byte)), "Scan", "reads receipts", [], "HackMIT", 0.9)

  /**
   * A concrete case: a page with a submission link, a summarizer answering a
   * summary with text, an embedder answering a vector, and a search finding
   * one project. The handler as written answers `[]`; with the hits listed
   * first it answers that project.
   */
  lemma DrainedCursorExample(summarize: ScrapedDoc -> Option<Summary>, embed: string -> Option<Vector>,
                             aggregate: Pipeline -> Option<seq<Hit>>)
    requires forall d :: summarize(d) == Some(ExampleSummary)
    requires forall t :: embed(t) == Some([1.0])
    requires forall p :: aggregate(p) == Some([ExampleHit])
    ensures Analyze(ExampleUrl, ExamplePage, summarize, embed, aggregate) == Json([])
    ensures AnalyzeListed(ExampleUrl, ExamplePage, summarize, embed, aggregate) == Json([ToJson(ExampleHit)])
  {
    ExampleAnalyze(summarize, embed, aggregate);
    ExampleAnalyzeListed(summarize, embed, aggregate);
  }

  lemma ExampleAnalyze(summarize: ScrapedDoc -> Option<Summary>, embed: string -> Option<Vector>,
                       aggregate: Pipeline -> Option<seq<Hit>>)
    requires forall d :: summarize(d) == Some(ExampleSummary)
    requires forall t :: embed(t) == Some([1.0])
    requires forall p :: aggregate(p) == Some([ExampleHit])
    ensures Analyze(ExampleUrl, ExamplePage, summarize, embed, aggregate) == Json([])
  {
    ExampleSearch(embed, aggregate);
    var cursor := PerformVectorSearch(QueryEmbedding(ExampleSummary, embed), DefaultLimit, None, aggregate).value;
    assert JsonResults(Remaining(cursor)) == [];
    var doc := AnalyzeScrape(ExampleUrl, ExamplePage);
    assert doc.Some?;
    assert summarize(doc.value) == Some(ExampleSummary);
  }

  lemma ExampleAnalyzeListed(summarize: ScrapedDoc -> Option<Summary>, embed: string -> Option<Vector>,
                             aggregate: Pipeline -> Option<seq<Hit>>)
    requires forall d :: summarize(d) == Some(ExampleSummary)
    requires forall t :: embed(t) == Some([1.0])
    requires forall p :: aggregate(p) == Some([ExampleHit])
    ensures AnalyzeListed(ExampleUrl, ExamplePage, summarize, embed, aggregate) == Json([ToJson(ExampleHit)])
  {
    ExampleSearch(embed, aggregate);
    assert JsonResults([ExampleHit]) == [ToJson(ExampleHit)];
    var doc := AnalyzeScrape(ExampleUrl, ExamplePage);
    assert doc.Some?;
    assert summarize(doc.value) == Some(ExampleSummary);
  }

  lemma ExampleSearch(embed: string -> Option<Vector>, aggregate: Pipeline -> Option<seq<Hit>>)
    requires forall t :: embed(t) == Some([1.0])
    requires forall p :: aggregate(p) == Some([ExampleHit])
    ensures PerformVectorSearch(QueryEmbedding(ExampleSummary, embed), DefaultLimit, None, aggregate).Some?
    ensures PerformVectorSearchListed(QueryEmbedding(ExampleSummary, embed), DefaultLimit, None, aggregate) == Some([ExampleHit])
  {
    ExampleQuery(embed);
  }

  lemma ExampleQuery(embed: string -> Option<Vector>)
    requires forall t :: embed(t) == Some([1.0])
    ensures QueryEmbedding(ExampleSummary, embed) == Some([1.0])
  {
    assert !AllSpace(ExampleSummary.summary) by { assert !IsSpace(ExampleSummary.summary[0]); }
  }
}

=== FILE: stable_sort.dfy ===
/**
 * `Array.prototype.sort` with a consistent comparator, as ECMAScript 2019
 * (section 22.1.3.27) requires it: the result is a permutation of the input,
 * ordered by the comparator, and stable. A comparator of the form
 * `(a, b) => key(a) - key(b)` is modelled by its integer key: `a` goes first
 * when its key is smaller.
 */
module StableSort {

  /** Non-decreasing by key. */
  ghost predicate Sorted<T>(s: seq<T>, key: T -> int) {
    forall i, j :: 0 <= i < j < |s| ==> key(s[i]) <= key(s[j])
  }

  /** The elements whose key is `v`, in their order in `s`. */
  function WithKey<T>(s: seq<T>, key: T -> int, v: int): seq<T> {
    if |s| == 0 then []
    else WithKey(s[..|s| - 1], key, v) + if key(s[|s| - 1]) == v then [s[|s| - 1]] else []
  }

  lemma WithKeySnoc<T>(s: seq<T>, x: T, key: T -> int, v: int)
    ensures WithKey(s + [x], key, v) == WithKey(s, key, v) + if key(x) == v then [x] else []
  {
    assert (s + [x])[..|s|] == s;
  }

  /** An element with key `v` makes the elements with key `v` non-empty. */
  lemma {:induction false} WithKeyMember<T>(s: seq<T>, key: T -> int, k: int)
    requires 0 <= k < |s|
    ensures |WithKey(s, key, key(s[k]))| > 0
  {
    if k < |s| - 1 {
      assert s[..|s| - 1][k] == s[k];
      WithKeyMember(s[..|s| - 1], key, k);
    }
  }

  /** Non-empty elements with key `v` come from an element with key `v`. */
  lemma {:induction false} WithKeyWitness<T>(s: seq<T>, key: T -> int, v: int) returns (k: int)
    requires |WithKey(s, key, v)| > 0
    ensures 0 <= k < |s| && key(s[k]) == v
  {
    if key(s[|s| - 1]) == v {
      k := |s| - 1;
    } else {
      k := WithKeyWitness(s[..|s| - 1], key, v);
      assert s[..|s| - 1][k] == s[k];
    }
  }

  /** `r` keeps, for every key, the relative order `s` had: the stability requirement. */
  ghost predicate SameOrderPerKey<T>(r: seq<T>, s: seq<T>, key: T -> int) {
    forall v :: WithKey(r, key, v) == WithKey(s, key, v)
  }

  /** Places `x` after every element of `t` whose key is not larger. */
  function Insert<T>(t: seq<T>, x: T, key: T -> int): seq<T> {
    if |t| == 0 then [x]
    else if key(t[|t| - 1]) <= key(x) then t + [x]
    else Insert(t[..|t| - 1], x, key) + [t[|t| - 1]]
  }

  lemma {:induction false} InsertMultiset<T>(t: seq<T>, x: T, key: T -> int)
    ensures multiset(Insert(t, x, key)) == multiset(t) + multiset{x}
  {
    if |t| > 0 && key(t[|t| - 1]) > key(x) {
      InsertMultiset(t[..|t| - 1], x, key);
      assert t == t[..|t| - 1] + [t[|t| - 1]];
    }
  }

  lemma {:induction false} InsertWithKey<T>(t: seq<T>, x: T, key: T -> int, v: int)
    ensures WithKey(Insert(t, x, key), key, v) == WithKey(t, key, v) + if key(x) == v then [x] else []
  {
    if |t| == 0 {
      WithKeySnoc([], x, key, v);
      assert [] + [x] == [x];
    } else if key(t[|t| - 1]) <= key(x) {
      WithKeySnoc(t, x, key, v);
    } else {
      var init, last := t[..|t| - 1], t[|t| - 1];
      InsertWithKey(init, x, key, v);
      WithKeySnoc(Insert(init, x, key), last, key, v);
    }
  }

  /** Inserting keeps every key at most `bound` when `x` and all of `t` are. */
  lemma {:induction false} InsertBounded<T>(t: seq<T>, x: T, key: T -> int, bound: int)
    requires forall i :: 0 <= i < |t| ==> key(t[i]) <= bound
    requires key(x) <= bound
    ensures forall i :: 0 <= i < |Insert(t, x, key)| ==> key(Insert(t, x, key)[i]) <= bound
  {
    if |t| > 0 && key(t[|t| - 1]) > key(x) {
      InsertBounded(t[..|t| - 1], x, key, bound);
    }
  }

  lemma {:induction false} InsertSorted<T>(t: seq<T>, x: T, key: T -> int)
    requires Sorted(t, key)
    ensures Sorted(Insert(t, x, key), key)
  {
    if |t| > 0 && key(t[|t| - 1]) > key(x) {
      var init, last := t[..|t| - 1], t[|t| - 1];
      InsertSorted(init, x, key);
      InsertBounded(init, x, key, key(last));
    }
  }

  /** Insertion sort by key: the reference result of a stable sort. */
  function Sort<T>(s: seq<T>, key: T -> int): seq<T> {
    if |s| == 0 then [] else Insert(Sort(s[..|s| - 1], key), s[|s| - 1], key)
  }

  lemma {:induction false} SortMultiset<T>(s: seq<T>, key: T -> int)
    ensures multiset(Sort(s, key)) == multiset(s)
  {
    if |s| > 0 {
      var init, last := s[..|s| - 1], s[|s| - 1];
      SortMultiset(init, key);
      InsertMultiset(Sort(init, key), last, key);
      assert s == init + [last];
    }
  }

  lemma {:induction false} SortSorted<T>(s: seq<T>, key: T -> int)
    ensures Sorted(Sort(s, key), key)
  {
    if |s| > 0 {
      SortSorted(s[..|s| - 1], key);
      InsertSorted(Sort(s[..|s| - 1], key), s[|s| - 1], key);
    }
  }

  lemma {:induction false} SortStable<T>(s: seq<T>, key: T -> int, v: int)
    ensures WithKey(Sort(s, key), key, v) == WithKey(s, key, v)
  {
    if |s| > 0 {
      var init, last := s[..|s| - 1], s[|s| - 1];
      SortStable(init, key, v);
      InsertWithKey(Sort(init, key), last, key, v);
      WithKeySnoc(init, last, key, v);
      assert s == init + [last];
    }
  }

  /** `Sort` is a stable sort: a permutation, ordered by key, keeping the input order among equal keys. */
  lemma SortSpec<T>(s: seq<T>, key: T -> int)
    ensures |Sort(s, key)| == |s|
    ensures multiset(Sort(s, key)) == multiset(s)
    ensures Sorted(Sort(s, key), key)
    ensures SameOrderPerKey(Sort(s, key), s, key)
  {
    SortMultiset(s, key);
    SortSorted(s, key);
    forall v
      ensures WithKey(Sort(s, key), key, v) == WithKey(s, key, v)
    {
      SortStable(s, key, v);
    }
    assert |multiset(Sort(s, key))| == |multiset(s)|;
  }

  lemma SnocCancel<T>(x: seq<T>, y: seq<T>, tail: seq<T>)
    requires x + tail == y + tail
    ensures x == y
  {
    assert x == (x + tail)[..|x|];
    assert y == (y + tail)[..|y|];
  }

  /** Two sorted sequences with the same elements per key end in the same element. */
  lemma SameLast<T>(a: seq<T>, b: seq<T>, key: T -> int)
    requires |a| > 0 && |b| > 0
    requires Sorted(a, key) && Sorted(b, key)
    requires SameOrderPerKey(a, b, key)
    ensures a[|a| - 1] == b[|b| - 1]
  {
    var al, bl := a[|a| - 1], b[|b| - 1];
    var m := key(al);
    LastKeyIsMax(a, b, key);
    assert SameOrderPerKey(b, a, key) by {
      forall v ensures WithKey(b, key, v) == WithKey(a, key, v) {
        assert WithKey(a, key, v) == WithKey(b, key, v);
      }
    }
    LastKeyIsMax(b, a, key);
    assert a == a[..|a| - 1] + [al] && b == b[..|b| - 1] + [bl];
    WithKeySnoc(a[..|a| - 1], al, key, m);
    WithKeySnoc(b[..|b| - 1], bl, key, m);
    var w := WithKey(a, key, m);
    assert w == WithKey(b, key, m);
    assert w[|w| - 1] == al && w[|w| - 1] == bl;
  }

  /** Dropping a common last element keeps the same elements per key. */
  lemma DropLast<T>(a: seq<T>, b: seq<T>, key: T -> int)
    requires |a| > 0 && |b| > 0 && a[|a| - 1] == b[|b| - 1]
    requires SameOrderPerKey(a, b, key)
    ensures SameOrderPerKey(a[..|a| - 1], b[..|b| - 1], key)
  {
    var ai, bi, x := a[..|a| - 1], b[..|b| - 1], a[|a| - 1];
    assert a == ai + [x] && b == bi + [x];
    forall v
      ensures WithKey(ai, key, v) == WithKey(bi, key, v)
    {
      WithKeySnoc(ai, x, key, v);
      WithKeySnoc(bi, x, key, v);
      assert WithKey(a, key, v) == WithKey(b, key, v);
      SnocCancel(WithKey(ai, key, v), WithKey(bi, key, v), if key(x) == v then [x] else []);
    }
  }

  /**
   * A stable sort has exactly one possible result: two sequences that are
   * ordered by the key, hold the same elements, and keep the same order among
   * equal keys are equal.
   */
  lemma {:induction false} StableSortUnique<T>(a: seq<T>, b: seq<T>, key: T -> int)
    requires multiset(a) == multiset(b)
    requires Sorted(a, key) && Sorted(b, key)
    requires SameOrderPerKey(a, b, key)
    ensures a == b
    decreases |a|
  {
    assert |a| == |multiset(a)| == |b|;
    if |a| > 0 {
      Peel(a, b, key);
      StableSortUnique(a[..|a| - 1], b[..|b| - 1], key);
      assert a == a[..|a| - 1] + [a[|a| - 1]];
      assert b == b[..|b| - 1] + [b[|b| - 1]];
    }
  }

  /** The premises of uniqueness carry over from two sequences to the two without their common last element. */
  lemma Peel<T>(a: seq<T>, b: seq<T>, key: T -> int)
    requires |a| > 0 && |b| > 0
    requires multiset(a) == multiset(b)
    requires Sorted(a, key) && Sorted(b, key)
    requires SameOrderPerKey(a, b, key)
    ensures a[|a| - 1] == b[|b| - 1]
    ensures multiset(a[..|a| - 1]) == multiset(b[..|b| - 1])
    ensures Sorted(a[..|a| - 1], key) && Sorted(b[..|b| - 1], key)
    ensures SameOrderPerKey(a[..|a| - 1], b[..|b| - 1], key)
  {
    SameLast(a, b, key);
    DropLast(a, b, key);
    MultisetDropLast(a);
    MultisetDropLast(b);
    SortedPrefix(a, key);
    SortedPrefix(b, key);
  }

  lemma MultisetDropLast<T>(a: seq<T>)
    requires |a| > 0
    ensures multiset(a[..|a| - 1]) == multiset(a) - multiset{a[|a| - 1]}
  {
    assert a == a[..|a| - 1] + [a[|a| - 1]];
  }

  lemma SortedPrefix<T>(a: seq<T>, key: T -> int)
    requires |a| > 0 && Sorted(a, key)
    ensures Sorted(a[..|a| - 1], key)
  {
  }

  /** The last key of a sorted `a` is at most the last key of a sorted `b` with the same elements per key. */
  lemma LastKeyIsMax<T>(a: seq<T>, b: seq<T>, key: T -> int)
    requires |a| > 0 && |b| > 0
    requires Sorted(b, key)
    requires SameOrderPerKey(a, b, key)
    ensures key(a[|a| - 1]) <= key(b[|b| - 1])
  {
    var m := key(a[|a| - 1]);
    WithKeyMember(a, key, |a| - 1);
    assert WithKey(a, key, m) == WithKey(b, key, m);
    var k := WithKeyWitness(b, key, m);
  }

  /** Whatever stable sort a runtime uses, its result is `Sort`'s. */
  lemma StableSortIsSort<T>(r: seq<T>, s: seq<T>, key: T -> int)
    requires multiset(r) == multiset(s) && Sorted(r, key) && SameOrderPerKey(r, s, key)
    ensures r == Sort(s, key)
  {
    SortSpec(s, key);
    var q := Sort(s, key);
    assert SameOrderPerKey(r, q, key) by {
      forall v ensures WithKey(r, key, v) == WithKey(q, key, v) {
        assert WithKey(r, key, v) == WithKey(s, key, v);
        assert WithKey(q, key, v) == WithKey(s, key, v);
      }
    }
    StableSortUnique(r, q, key);
  }

  /** Sorting an already ordered sequence leaves it as it is. */
  lemma SortKeepsSorted<T>(s: seq<T>, key: T -> int)
    requires Sorted(s, key)
    ensures Sort(s, key) == s
  {
    StableSortIsSort(s, s, key);
  }
}

=== FILE: strings.dfy ===
/**
 * Text primitives the Python and TypeScript sources lean on: `str.strip()`,
 * `" ".join(...)`, the `in` and prefix tests, `str(n)` on a natural number, and
 * the lowercase hex rendering behind `str(ObjectId)`.
 */
module Strings {

  /** Python's `str.isspace()` for a single character. */
  predicate IsSpace(c: char) {
    || c == ' '
    || ('\t' <= c <= '\r')
    || ('\U{1c}' <= c <= '\U{1f}')
    || c == '\U{85}' || c == '\U{a0}' || c == '\U{1680}'
    || ('\U{2000}' <= c <= '\U{200a}')
    || c == '\U{2028}' || c == '\U{2029}' || c == '\U{202f}' || c == '\U{205f}' || c == '\U{3000}'
  }

  predicate AllSpace(s: string) {
    forall i :: 0 <= i < |s| ==> IsSpace(s[i])
  }

  /** A string that `strip()` leaves as it is: empty, or no whitespace at either end. */
  predicate IsStripped(s: string) {
    s == [] || (!IsSpace(s[0]) && !IsSpace(s[|s| - 1]))
  }

  /** The number of whitespace characters at the front of `s`. */
  function LeadingSpaces(s: string): (n: nat)
    ensures n <= |s| && AllSpace(s[..n])
    ensures n < |s| ==> !IsSpace(s[n])
  {
    if |s| > 0 && IsSpace(s[0]) then
      var n := 1 + LeadingSpaces(s[1..]);
      assert s[..n] == [s[0]] + s[1..][..n - 1];
      n
    else 0
  }

  function TrimStart(s: string): (r: string)
    ensures r == s[LeadingSpaces(s)..]
  {
    if |s| > 0 && IsSpace(s[0]) then TrimStart(s[1..]) else s
  }

  function TrimEnd(s: string): (r: string)
    ensures |r| <= |s| && r == s[..|r|] && AllSpace(s[|r|..])
    ensures r == [] || !IsSpace(r[|r| - 1])
  {
    if |s| > 0 && IsSpace(s[|s| - 1]) then
      var r := TrimEnd(s[..|s| - 1]);
      assert s[|r|..] == s[..|s| - 1][|r|..] + [s[|s| - 1]];
      r
    else s
  }

  /**
   * Python's `s.strip()`: the slice of `s` left once the whitespace at both
   * ends is removed. It is empty exactly when `s` is all whitespace.
   */
  function Strip(s: string): (r: string)
    ensures LeadingSpaces(s) + |r| <= |s|
    ensures r == s[LeadingSpaces(s)..LeadingSpaces(s) + |r|]
    ensures AllSpace(s[LeadingSpaces(s) + |r|..])
    ensures IsStripped(r)
    ensures r == [] <==> AllSpace(s)
  {
    var n := LeadingSpaces(s);
    var r := TrimEnd(TrimStart(s));
    assert s[n..][..|r|] == s[n..n + |r|];
    assert s[n + |r|..] == s[n..][|r|..];
    if r == [] then
      assert s == s[..n] + s[n..];
      r
    else
      assert r[0] == s[n];
      r
  }

  /** Python's `sep.join(parts)`. */
  function Join(sep: string, parts: seq<string>): string {
    if |parts| == 0 then ""
    else if |parts| == 1 then parts[0]
    else parts[0] + sep + Join(sep, parts[1..])
  }

  /** `p` is a prefix of `s`: JavaScript's `startsWith`, or a regex anchored with `^` holding only literals. */
  predicate IsPrefix(p: string, s: string) {
    |p| <= |s| && s[..|p|] == p
  }

  /** Python's `sub in s`. */
  predicate Contains(s: string, sub: string)
    decreases |s|
  {
    IsPrefix(sub, s) || (|s| > 0 && Contains(s[1..], sub))
  }

  lemma ContainsSelf(s: string)
    ensures Contains(s, s)
  {
    assert s[..|s|] == s;
  }

  lemma {:induction false} ContainsInSuffix(a: string, s: string, sub: string)
    requires Contains(s, sub)
    ensures Contains(a + s, sub)
  {
    if |a| > 0 {
      assert (a + s)[1..] == a[1..] + s;
      ContainsInSuffix(a[1..], s, sub);
    } else {
      assert a + s == s;
    }
  }

  lemma {:induction false} ContainsInPrefix(s: string, c: string, sub: string)
    requires Contains(s, sub)
    ensures Contains(s + c, sub)
    decreases |s|
  {
    if IsPrefix(sub, s) {
      assert (s + c)[..|sub|] == s[..|sub|];
    } else {
      assert (s + c)[1..] == s[1..] + c;
      ContainsInPrefix(s[1..], c, sub);
    }
  }

  predicate IsDigit(c: char) {
    '0' <= c <= '9'
  }

  predicate AllDigits(s: string) {
    forall i :: 0 <= i < |s| ==> IsDigit(s[i])
  }

  /**
   * Python's `str(n)` and JavaScript's `n.toString()` for a natural number:
   * decimal digits, never empty, and no leading zero except for `"0"` itself.
   */
  function NatToString(n: nat): (s: string)
    ensures |s| >= 1 && AllDigits(s)
    ensures s[0] == '0' ==> s == "0"
  {
    if n < 10 then [('0' as int + n) as char]
    else NatToString(n / 10) + [('0' as int + n % 10) as char]
  }

  /** The decimal value of a string of digits. */
  function ParseNat(s: string): nat
    requires AllDigits(s)
  {
    if |s| == 0 then 0
    else ParseNat(s[..|s| - 1]) * 10 + (s[|s| - 1] as int - '0' as int)
  }

  lemma {:induction false} ParseNatToString(n: nat)
    ensures ParseNat(NatToString(n)) == n
  {
    var s := NatToString(n);
    if n >= 10 {
      ParseNatToString(n / 10);
      assert s[..|s| - 1] == NatToString(n / 10);
    }
  }

  /** Distinct numbers print differently. */
  lemma NatToStringInjective(a: nat, b: nat)
    ensures NatToString(a) == NatToString(b) <==> a == b
  {
    ParseNatToString(a);
    ParseNatToString(b);
  }

  newtype byte = b: int | 0 <= b < 256

  predicate IsLowerHex(c: char) {
    IsDigit(c) || 'a' <= c <= 'f'
  }

  function HexDigit(d: int): (c: char)
    requires 0 <= d < 16
    ensures IsLowerHex(c)
  {
    if d < 10 then ('0' as int + d) as char else ('a' as int + d - 10) as char
  }

  function HexValue(c: char): (d: int)
    requires IsLowerHex(c)
    ensures 0 <= d < 16 && HexDigit(d) == c
    ensures forall e :: 0 <= e < 16 && HexDigit(e) == c ==> e == d
  {
    if IsDigit(c) then c as int - '0' as int else c as int - 'a' as int + 10
  }

  /** Two lowercase hex digits per byte, most significant digit first (Python's `bytes.hex()`). */
  function Hex(bytes: seq<byte>): (s: string)
    ensures |s| == 2 * |bytes|
    ensures forall i :: 0 <= i < |s| ==> IsLowerHex(s[i])
  {
    if |bytes| == 0 then ""
    else [HexDigit(bytes[0] as int / 16), HexDigit(bytes[0] as int % 16)] + Hex(bytes[1..])
  }

  function Unhex(s: string): seq<byte>
    requires |s| % 2 == 0
    requires forall i :: 0 <= i < |s| ==> IsLowerHex(s[i])
  {
    if |s| == 0 then []
    else [(HexValue(s[0]) * 16 + HexValue(s[1])) as byte] + Unhex(s[2..])
  }

  lemma {:induction false} UnhexHex(bytes: seq<byte>)
    ensures Unhex(Hex(bytes)) == bytes
  {
    if |bytes| > 0 {
      var s := Hex(bytes);
      var hi, lo := bytes[0] as int / 16, bytes[0] as int % 16;
      assert s[0] == HexDigit(hi) && s[1] == HexDigit(lo);
      assert s[2..] == Hex(bytes[1..]);
      assert HexValue(s[0]) == hi && HexValue(s[1]) == lo;
      UnhexHex(bytes[1..]);
    }
  }
}

=== FILE: topics.dfy ===
/** The topics page (front/app/topics/page.tsx): the sample topic counts and the copy the chart draws, sorted by count. */
module Topics {
  import opened StableSort

  datatype Topic = Topic(topic: string, count: int)

  const TopicData: seq<Topic> := [
    Topic("Artificial Intelligence", 78),
    Topic("Web3 / Blockchain", 65),
    Topic("Healthcare Tech", 52),
    Topic("Climate Tech", 48),
    Topic("EdTech", 43),
    Topic("Fintech", 39),
    Topic("AR/VR", 35),
    Topic("IoT", 32),
    Topic("Cybersecurity", 28),
    Topic("Social Impact", 25)
  ]

  /** The key of the comparator `(a, b) => b.count - a.count`. */
  function CountKey(): Topic -> int {
    (t: Topic) => -t.count
  }

  /** The copy of the topics the chart draws. */
  function SortedData(): seq<Topic> {
    Sort(TopicData, CountKey())
  }

  ghost predicate ByDecreasingCount(s: seq<Topic>) {
    forall i, j :: 0 <= i < j < |s| ==> s[i].count >= s[j].count
  }

  /**
   * The chart shows every topic once, by decreasing count, topics with equal
   * counts in their listed order; and since the sample list is already in
   * that order, the chart shows it unchanged.
   */
  lemma SortedDataSpec()
    ensures multiset(SortedData()) == multiset(TopicData)
    ensures ByDecreasingCount(SortedData())
    ensures SameOrderPerKey(SortedData(), TopicData, CountKey())
    ensures SortedData() == TopicData
  {
    SortSpec(TopicData, CountKey());
    SampleTopicsInOrder();
    SortKeepsSorted(TopicData, CountKey());
  }

  lemma SampleTopicsInOrder()
    ensures Sorted(TopicData, CountKey())
  {
    var counts := [78, 65, 52, 48, 43, 39, 35, 32, 28, 25];
    assert forall i :: 0 <= i < |TopicData| ==> CountKey()(TopicData[i]) == -counts[i];
    assert forall i, j :: 0 <= i < j < |counts| ==> counts[i] >= counts[j];
  }
}

=== FILE: wrappers.dfy ===
/** The failure-carrying datatypes shared by the whole model. */
module Wrappers {

  /** Python's `None`-or-value results: `None` is absence, `Some(v)` a value. */
  datatype Option<+T> = None | Some(value: T) {

    /** The value, or `default` when absent (Python's `x or default` on a string-valued field). */
    function GetOr(default: T): T {
      match this
      case Some(v) => v
      case None => default
    }
  }
}
